=== FILE: README.md ===
# Spring path and camera timelines — a Dafny model

The application draws a spiral "spring" of instanced bricks along a path. The path is either a helix or a polyline loaded from an exported JSON document. A scroll-driven camera follows named timelines.

This project models the discrete, stateable core of that code and proves properties of it:

- **Arc-length table** (`arc_length.dfy`, module `ArcLength`).
  - Building the cumulative-length table over the fitted curve's samples.
  - The lower-bound binary search of `getPointAt`.
  - Segment selection with a clamped local fraction.
  - The finite-difference tangent samples.
- **Path document reader** (`point_source.dfy`, module `PointSource`).
  - The permissive recursive `extract` search over a JSON tree. It tries the preferred keys first, then every key.
  - The point filter, which accepts `[x,y,z]`, `{x,y,z}` and `{co:[x,y,z]}` entries and drops non-finite coordinates.
  - The "fewer than two points" failures.
- **Brick placement** (`placement.dfy`, module `Placement`).
  - The slot parameter `((i + 0.5) / count + startOffset) % 1`, with optional reversal.
  - The outward distance.
  - The instanced mesh as a class whose base pass and per-frame pass write the slot array in place. A ghost log records which slots each pass writes.
- **Keyframe sampler** (`keyframes.dfy`, module `Keyframes`).
  - Clamping the normalized time, the floor segment, its fraction and the capped neighbour indices.
  - Linear interpolation of position and spherical interpolation of orientation.
  - The seconds-to-normalized conversion of the simulated timelines.
- **Sheet sub-range layout** (`sheet_layout.dfy`, module `SheetLayout`).
  - Default durations and detection of the sequence length.
  - The scale factor and the three contiguous segments.
  - Clamping of `seek`/`seekNormalized` into the sequence.
  - The sequence's playhead as a mutable field.
- **Timeline registry** (`registry.dfy`, module `Registry`).
  - A class holding a map from id to wrapper and a camera-reference slot.
  - Registration with replacement, no-ops on unknown ids, and the three-way dispatch of `seekTimelineNormalized`.
- **Registration and wrapper effects** (`registration.dfy`, module `Registration`).
  - Registering theatreA/theatreB as sheet sub-ranges or as simulated keyframe timelines.
  - What each wrapper's seek does to the sequence's playhead or to the camera.
  - `seekTimelineNormalized` carried out end to end.

Shared definitions live in `mathutil.dfy` (module `MathUtil`): `Option`, JavaScript numbers with an explicit finiteness flag, vectors, clamp, lerp and finite-difference parameters.

Numbers are Dafny `real`. Geometry computed by the rendering library is not modelled:

- distances between samples are given non-negative reals;
- a slot's transform is recorded as the three inputs its matrix is built from: parameter, outward distance and facing;
- rotations are uninterpreted.

The slot parameter adds `startOffset` and applies JavaScript's `%`, which keeps the sign of a negative operand; the model follows the code. `Placement.NegativeOffsetLeavesUnitRange` shows that a negative `startOffset` yields parameters outside [0,1]. `Placement.ReversedIsComplement` shows that the `if (t < 0) t += 1` correction after reversal can never apply.

## Model

| member | source | states |
|---|---|---|
| MathUtil.Clamp | src/theatre/autoRegisterSheet.js:49 | `max(lo, min(hi, v))` is at least `lo`; it is at most `hi` when `lo <= hi`; it is `v` inside the range, `lo` below it and `hi` above it |
| MathUtil.ClampMonotone | src/SpringPath-BlenderPath.jsx:48 | clamping preserves order |
| MathUtil.Lerp | src/theatre/bootstrapRegisterSimulated.js:5-11 | component-wise interpolation gives `a` at 0, `b` at 1, and `a` when both ends coincide |
| MathUtil.LerpBetween | src/SpringPath-BlenderPath.jsx:60-61 | for a fraction in [0,1], every coordinate of the interpolated point lies between the end points' coordinates |
| MathUtil.DifferenceParams | src/SpringPath.jsx:172-173 | `max(0, t - eps)` is at least 0 and `min(1, t + eps)` at most 1; for `t` in [0,1] they bracket `t` and differ |
| ArcLength.Divisions | src/SpringPath-BlenderPath.jsx:35 | the fitted curve is asked for at least 256 divisions and at least `samples` |
| ArcLength.BuildSampledCurve | src/SpringPath-BlenderPath.jsx:32-45 | for the `Divisions(samples) + 1` points of the fitted curve: `null` exactly for fewer than two control points; otherwise the table has one entry per point (more than 256), entry `i` is the sum of the first `i` segment distances; the table starts at 0 and never decreases; the total is `max(1e-6, sum)`; the curve is `Valid` |
| ArcLength.SumPrefixMonotone | src/SpringPath-BlenderPath.jsx:39-42 | running sums of non-negative distances never decrease |
| ArcLength.SumNonNegative | src/SpringPath-BlenderPath.jsx:37-42 | the running total is non-negative |
| ArcLength.FirstAtLeast | src/SpringPath-BlenderPath.jsx:51-56 | reference lower bound: an index in range, at the target or beyond it, or the last index |
| ArcLength.FirstAtLeastSkips | src/SpringPath-BlenderPath.jsx:51-56 | every index before the lower bound has a length below the target |
| ArcLength.FirstAtLeastUnique | src/SpringPath-BlenderPath.jsx:51-56 | any index with the lower bound's two properties is the lower bound |
| ArcLength.FirstAtLeastMonotone | src/SpringPath-BlenderPath.jsx:51-56 | a larger target never gives an earlier lower bound |
| ArcLength.LowerBound | src/SpringPath-BlenderPath.jsx:51-56 | the binary search ends at an index below `n`; every earlier entry is below the target; the entry reached is at least the target unless it is the last; the index equals `FirstAtLeast` |
| ArcLength.TargetLength | src/SpringPath-BlenderPath.jsx:48-49 | the target length lies in [0, total]; a non-finite or non-positive parameter gives 0, and a parameter of 1 or more gives the total |
| ArcLength.Locate | src/SpringPath-BlenderPath.jsx:57-60 | the segment index `max(1, lo)` lies in [1, n-1] and the local fraction in [0,1] |
| ArcLength.PointAt | src/SpringPath-BlenderPath.jsx:47-63 | the point returned is `PointOnCurve`: the interpolation inside the selected segment |
| ArcLength.LocateBrackets | src/SpringPath-BlenderPath.jsx:51-60 | for a target inside the table, the selected segment's end lengths bracket it |
| ArcLength.PointAtStart | src/SpringPath-BlenderPath.jsx:48-61 | a non-finite or non-positive parameter yields the first sample point |
| ArcLength.PointAtEnd | src/SpringPath-BlenderPath.jsx:48-61 | parameter 1 or more yields the last sample point whenever the last segment is at least 1e-9 long, also when the 1e-6 floor raises the total above the table's last entry |
| ArcLength.LocateMonotone | src/SpringPath-BlenderPath.jsx:51-60 | a longer target never selects an earlier place on the polyline |
| ArcLength.TargetLengthMonotone | src/SpringPath-BlenderPath.jsx:48-49 | a parameter that clamps later gives a target length that is not shorter |
| ArcLength.TangentStep | src/SpringPath-BlenderPath.jsx:66 | the tangent step `1 / max(1000, samples)` is positive and at most 0.001 |
| ArcLength.TangentAt | src/SpringPath-BlenderPath.jsx:65-71 | the difference is the curve point at `min(1, t + eps)` minus the one at `max(0, t - eps)` |
| ArcLength.TangentSamplesOrdered | src/SpringPath-BlenderPath.jsx:67-70 | the two tangent samples are in path order |
| PointSource.KeyIndex | src/SpringPath-BlenderPath.jsx:268 | a field named `k` exists exactly when an index is returned, and that index is the first such field |
| PointSource.LookupDistinct | src/SpringPath-BlenderPath.jsx:275 | in an object whose keys are distinct, as in every parsed object, looking up a field's key yields that field's value |
| PointSource.TryPreferred | src/SpringPath-BlenderPath.jsx:275-278 | trying one preferred key yields only arrays of the accepted shape |
| PointSource.SearchPreferred | src/SpringPath-BlenderPath.jsx:273-279 | the preferred-key loop yields only arrays of the accepted shape |
| PointSource.SearchFields | src/SpringPath-BlenderPath.jsx:280-285 | the all-keys loop yields only arrays of the accepted shape |
| PointSource.SearchItems | src/SpringPath-BlenderPath.jsx:265-285 | the search over an array's entries yields only arrays of the accepted shape |
| PointSource.Extract | src/SpringPath-BlenderPath.jsx:263-288 | every array found has the accepted shape; a value that has the shape is returned itself |
| PointSource.ExtractComplete | src/SpringPath-BlenderPath.jsx:263-288 | the search succeeds exactly when an accepted array occurs somewhere in the document |
| PointSource.SearchPreferredSound | src/SpringPath-BlenderPath.jsx:273-279 | what the preferred-key pass from `k` returns is what trying some preferred key at or after `k` gives; that is the search of a field value holding an accepted array |
| PointSource.SearchFieldsComplete | src/SpringPath-BlenderPath.jsx:280-285 | the pass over all keys succeeds exactly when some value contains an accepted array |
| PointSource.SearchItemsComplete | src/SpringPath-BlenderPath.jsx:265-285 | for an array, the search succeeds exactly when some entry contains an accepted array |
| PointSource.PreferredKeyWins | src/SpringPath-BlenderPath.jsx:273-279 | the first preferred key in the fixed order that yields an array decides the result, before any other key |
| PointSource.SearchPreferredFrom | src/SpringPath-BlenderPath.jsx:274-278 | the preferred keys are tried in order and the first success is returned |
| PointSource.FieldsInOrder | src/SpringPath-BlenderPath.jsx:280-285 | the result of the all-keys pass comes from one of the keys at or after the starting position |
| PointSource.ToNumber | src/SpringPath-BlenderPath.jsx:298 | a number converts to itself; null, false and "" give 0, true gives 1, and an object is not finite |
| PointSource.EntryPoint | src/SpringPath-BlenderPath.jsx:296-308 | only arrays and objects give points; an array of at least three entries gives `Coords` of its first three and a shorter one none; an object with `x`, `y` and `z` gives `Coords` of those values; otherwise an object whose `co` is an array of at least three entries gives `Coords` of its first three; any other object gives none |
| PointSource.Coords | src/SpringPath-BlenderPath.jsx:298-299 | a point is made exactly when all three coordinates are finite, and it has those coordinates |
| PointSource.KeptPoints | src/SpringPath-BlenderPath.jsx:294-309 | the filter never keeps more points than there are entries |
| PointSource.FilterPoints | src/SpringPath-BlenderPath.jsx:294-309 | the loop pushes exactly `KeptPoints(raw)` |
| PointSource.KeptPointsAppend | src/SpringPath-BlenderPath.jsx:295-309 | filtering a concatenation filters each part, so source order is preserved |
| PointSource.KeptSingle | src/SpringPath-BlenderPath.jsx:296-308 | a single entry is kept exactly when it has an accepted shape with finite coordinates |
| PointSource.KeptAll | src/SpringPath-BlenderPath.jsx:294-309 | when every entry is a well-formed finite point, all are kept, in order |
| PointSource.AcceptedShapes | src/SpringPath-BlenderPath.jsx:297-307 | `[x,y,z]`, `{x,y,z}` and `{co:[x,y,z]}` each give the point (x,y,z) |
| PointSource.KeptOnlyFinite | src/SpringPath-BlenderPath.jsx:296-308 | whatever its shape, an entry is kept only as the point of three of its values that all convert to finite numbers; an entry with a non-finite coordinate is dropped |
| PointSource.LoadPathPoints | src/SpringPath-BlenderPath.jsx:289-313 | points are published exactly when an array is found, it has at least two entries, and at least two points are kept; the points published are the kept ones |
| Placement.RemOne | src/SpringPath.jsx:100 | `x % 1` lies in [0,1) for non-negative `x` and in (-1,0] for negative `x`; for non-negative `x` it is `x` minus its floor |
| Placement.Reversed | src/SpringPath.jsx:101-104 | `1 - t` for `t <= 1`, and `2 - t` above 1; a parameter in [0,1) maps into (0,1] |
| Placement.SlotParam | src/SpringPath.jsx:99-104 | for any start offset the forward parameter lies in (-1,1) and the reversed one in (0,2) |
| Placement.SlotParamRange | src/SpringPath.jsx:99-104 | for `startOffset >= 0` the slot parameter lies in [0,1), and in (0,1] when reversed |
| Placement.ReversedIsComplement | src/SpringPath.jsx:101-104 | the reversed parameter is always `1 - t`, for every start offset, so the `t < 0` correction never applies |
| Placement.NegativeOffsetLeavesUnitRange | src/SpringPath.jsx:100-104 | with 40 slots and offset -0.9, slot 0 gets -0.8875 (1.8875 reversed), outside [0,1] |
| Placement.SingleSlotAtMiddle | src/SpringPath.jsx:99-100 | one slot with no offset sits at parameter 0.5 |
| Placement.SlotParamsDistinct | src/SpringPath.jsx:98-104 | with a non-negative offset, distinct slots get distinct parameters, forward or reversed |
| Placement.OutwardDistance | src/SpringPath.jsx:113 | the distance is non-negative for non-negative half depth plus offset and scale; without a radial offset it is `depth * scale / 2` |
| Placement.BaseTransform | src/SpringPath.jsx:99-127 | the base pass places slot `i` at `SlotParam(i, …)` and the outward distance, facing the radial direction; the parameter lies in [0,1] for a non-negative offset |
| Placement.FrameTransform | src/SpringPath.jsx:152-191 | the per-frame pass places slot `i` at `SlotParam(i, …)` and the outward distance, facing the tangent between two parameters inside [0,1], negated exactly when reversed |
| Placement.PassesAgree | src/SpringPath.jsx:152-165 | the base pass and the per-frame pass give a slot the same parameter and the same outward distance `(depth/2 + radialOffset) * scale` |
| Placement.FrameTangentSamples | src/SpringPath.jsx:171-180 | with a non-negative offset the tangent samples stay in [0,1], bracket the slot's parameter and differ; the tangent is negated exactly when the start is reversed |
| Placement.BaseTransforms | src/SpringPath.jsx:129 | there is one base entry per slot |
| Placement.InstancedMesh.constructor | src/SpringPath.jsx:244 | the mesh has `max(1, count)` slots, all identity, and no base cache |
| Placement.InstancedMesh.BuildBase | src/SpringPath.jsx:98-134 | writes slots 0..count-1 once each, in order, with their base transforms; leaves the other slots alone; caches exactly those entries in index order; sets the drawn count and the update flag |
| Placement.InstancedMesh.FrameUpdate | src/SpringPath.jsx:138-195 | does nothing without a base cache; otherwise rewrites, in order, exactly the slots below `min(base entries, drawn count)` with their per-frame transforms and sets the update flag |
| Keyframes.Slerp | src/theatre/bootstrapRegisterSimulated.js:13-17 | the start at fraction 0, the end at fraction 1, and the start when the ends coincide |
| Keyframes.BracketAt | src/theatre/bootstrapRegisterSimulated.js:20-25 | both neighbour indices are in bounds; the second is the next one or both are the last; the fraction lies in [0,1); index plus fraction is `(len - 1) * clamp(norm, 0, 1)` |
| Keyframes.SampleKeyframes | src/theatre/bootstrapRegisterSimulated.js:19-29 | a single keyframe gives its pose at every time; the orientation is one of the two neighbouring keyframes' or their spherical interpolation at the bracket's fraction |
| Keyframes.SampleAtStart | src/theatre/bootstrapRegisterSimulated.js:19-29 | at normalized time 0 or below, the pose is the first keyframe's |
| Keyframes.SampleAtEnd | src/theatre/bootstrapRegisterSimulated.js:19-29 | at normalized time 1 or above, the pose is the last keyframe's |
| Keyframes.SampleAtKeyframe | src/theatre/bootstrapRegisterSimulated.js:19-29 | at time `k / (len - 1)` the pose is keyframe `k`'s |
| Keyframes.SampleBetweenNeighbours | src/theatre/bootstrapRegisterSimulated.js:21-26 | the sampled position lies, coordinate by coordinate, between the two neighbouring keyframes |
| Keyframes.SecondsToNorm | src/theatre/bootstrapRegisterSimulated.js:49 | a zero duration gives 0; seconds within a positive duration give a value in [0,1] |
| Keyframes.SecondsToNormRoundTrip | src/theatre/bootstrapRegisterSimulated.js:48-51 | seeking `n * duration` seconds reaches normalized time `n` |
| Keyframes.KeyAMidpoints | src/theatre/bootstrapRegisterSimulated.js:31-35 | halfway through theatreA the pose is the middle keyframe; a quarter of the way the position is (0, 5, 14) |
| SheetLayout.OrDefault | src/theatre/autoRegisterSheet.js:36-38 | a missing or zero duration takes its default, and any other duration is kept |
| SheetLayout.TotalDuration | src/theatre/autoRegisterSheet.js:39 | with no negative duration, each defaulted duration and their total are positive |
| SheetLayout.DetectSequenceLength | src/theatre/autoRegisterSheet.js:24-32 | the pointer length wins when finite and non-zero, then the length when finite and non-zero; when neither is, the sum of the defaulted durations; the result is zero only if that sum is |
| SheetLayout.ComputeLayout | src/theatre/autoRegisterSheet.js:41-45 | the scale times the total duration is the sequence length when that is positive, else the scale is 1; A starts at 0, H where A ends, B where H ends; each segment has its duration times the scale; B ends at a positive sequence length |
| SheetLayout.LayoutTilesSequence | src/theatre/autoRegisterSheet.js:41-45 | with no negative duration and a positive length, the scale is positive and the segments tile [0, seqTotal] in order |
| SheetLayout.SafePosition | src/theatre/autoRegisterSheet.js:49 | the written position is non-negative, at most `seqTotal`, and the requested one when it is inside |
| SheetLayout.RangeSeekPosition | src/theatre/autoRegisterSheet.js:81-94 | the written position lies in [0, seqTotal]; it is `start + clamp(tSec, 0, length)` when that fits and the sequence end otherwise |
| SheetLayout.DefaultLayout | src/theatre/autoRegisterSheet.js:6-45 | with the default durations and no reported length the sequence is 4200 s, the scale is 1 and the segments are [0, 1200], [1200, 2400] and [2400, 4200] |
| SheetLayout.RangeSeekNormalizedPosition | src/theatre/autoRegisterSheet.js:95-99 | the normalized seek writes a position in [0, seqTotal]; an empty range inside the sequence holds its start |
| SheetLayout.RangeSeekMonotone | src/theatre/autoRegisterSheet.js:81-94 | a later seek never moves the playhead earlier |
| SheetLayout.SeekNormalizedInRange | src/theatre/autoRegisterSheet.js:95-99 | for a range inside the sequence, `seekNormalized(n)` lands at `start + length * clamp(n, 0, 1)`, inside the range |
| SheetLayout.SeekNormalizedInSegment | src/theatre/autoRegisterSheet.js:95-99 | in a tiling layout, normalized seeks on theatreA and theatreB land inside their own segments |
| SheetLayout.SegmentAEndsWhereHelixStarts | src/theatre/autoRegisterSheet.js:43-45 | seeking theatreA to its end lands where the helix segment begins |
| SheetLayout.Sequence.SetPosition | src/theatre/autoRegisterSheet.js:48-70 | the playhead becomes the clamped position, in [0, seqTotal] |
| Registry.NormalizedSeekCall | src/registry/TimelineRegistryContext.jsx:17-22 | the wrapper's own normalized seek when present; else a seek to `clamp(norm, 0, 1) * duration` when the duration is non-zero; else a seek to `norm`; no call when the needed operation is missing |
| Registry.FractionOfDuration | src/registry/TimelineRegistryContext.jsx:19 | `clamp(norm, 0, 1) * duration` lies in [0, duration] for a non-negative duration, and is `norm * duration` for `norm` in [0,1] |
| Registry.FallbackSeekWithinDuration | src/registry/TimelineRegistryContext.jsx:18-21 | the fallback seek for a positive duration stays within [0, duration] |
| Registry.TimelineRegistry.constructor | src/registry/TimelineRegistryContext.jsx:5-8 | a new registry is empty and has no camera reference |
| Registry.TimelineRegistry.RegisterTimeline | src/registry/TimelineRegistryContext.jsx:9 | afterwards `getTimeline(id)` is the new wrapper, replacing any earlier one; every other id is unchanged |
| Registry.TimelineRegistry.GetTimeline | src/registry/TimelineRegistryContext.jsx:10 | a wrapper is returned exactly for a registered id, and it is the one registered |
| Registry.TimelineRegistry.PlayTimeline | src/registry/TimelineRegistryContext.jsx:11 | `play` is called exactly when the id is registered and its wrapper has play |
| Registry.TimelineRegistry.PauseTimeline | src/registry/TimelineRegistryContext.jsx:12 | `pause` is called exactly when the id is registered and its wrapper has pause |
| Registry.TimelineRegistry.SeekTimeline | src/registry/TimelineRegistryContext.jsx:13 | `seek(tSec)` is called, with the same seconds, exactly when the id is registered and its wrapper has seek |
| Registry.TimelineRegistry.SeekTimelineNormalized | src/registry/TimelineRegistryContext.jsx:14-23 | no call for an unknown id; otherwise the three-way dispatch |
| Registry.TimelineRegistry.SetCameraRef | src/registry/TimelineRegistryContext.jsx:24-25 | `getCameraRef` afterwards returns the reference set; the timelines are unchanged |
| Registry.TimelineRegistry.GetCameraRef | src/registry/TimelineRegistryContext.jsx:25 | the stored reference; with `SetCameraRef` it returns what was last set |
| Registry.TimelineRegistry.CameraFrame | src/theatre/bootstrapRegisterSimulated.js:57-58 | there is a camera to write exactly when a reference with a mounted camera is stored |
| Registration.RegisterSheetTimelines | src/theatre/autoRegisterSheet.js:6-108 | nothing is registered without a registry, a sheet or a sequence; otherwise exactly theatreA and theatreB are (re)registered as the layout's A and B sub-ranges, and the helix is not registered |
| Registration.RegisterSimulatedTheatre | src/theatre/bootstrapRegisterSimulated.js:72-73 | theatreA is registered with the A keyframes and 1200 s, and theatreB with the B keyframes and 1800 s |
| Registration.SheetRangeSeek | src/theatre/autoRegisterSheet.js:81-94 | the playhead is moved to `RangeSeekPosition`, within [0, seqTotal] |
| Registration.SheetRangeSeekNormalized | src/theatre/autoRegisterSheet.js:95-99 | the playhead is moved to the position of a seek to `length * clamp(n, 0, 1)` |
| Registration.SimulatedSeekNormalized | src/theatre/bootstrapRegisterSimulated.js:52-67 | camera untouched under external control or with no camera; with a smooth jump, a jump to the sampled pose over 0.3 s is requested; otherwise the camera's position and orientation become the sampled pose |
| Registration.SimulatedSeek | src/theatre/bootstrapRegisterSimulated.js:48-51 | a normalized seek to `tSec / duration`, or to 0 for a zero duration |
| Registration.Invoke | src/theatre/autoRegisterSheet.js:78-99 | each call on a sub-range or simulated wrapper has that wrapper's effect; play and pause change nothing modelled |
| Registration.SeekTimelineNormalized | src/registry/TimelineRegistryContext.jsx:14-23 | nothing for an unknown id; a sub-range moves its playhead to the clamped fraction of its range; a simulated timeline moves the camera to the pose sampled at `norm` |

## Left out

- Geometry through the rendering library is not modelled. This covers Catmull-Rom fitting, `distanceTo`, `normalize`, cross products, `makeBasis`, quaternions from matrices, `Matrix4.compose`, the helix's trigonometric `getPoint`, and the degenerate-axis fallbacks. These are floating point and foreign code. Sample points and distances are inputs, and a slot records its parameter, outward distance and facing.
- Floating point is not modelled. Numbers are reals, and the single-precision rounding of the `Float32Array` length table is not captured.
- The bit shift `(lo + hi) >> 1` is modelled as integer division by 2; the two agree for the small non-negative indices involved.
- ArcLength.TangentAt: returns the difference before normalising; normalising is floating-point geometry.
- ArcLength.PointAtEnd: it is stated only when the last segment is at least 1e-9 long. Below that floor the code divides by 1e-9 instead of the segment's length.
- PointSource.ToNumber: every non-empty string is treated as non-finite. JavaScript's `Number` parses numeric strings and turns whitespace-only strings into 0.
- PointSource.ToNumber: every array other than `[]` and `[n]` with a JSON number `n` is treated as non-finite. JavaScript's `Number` goes through the array's string form. It turns `[null]`, `[""]` and `[[]]` into 0, and `["5"]` and `[[5]]` into 5.
- In all of these cases the filter drops an entry that the code keeps. The document's coordinates are expected to be JSON numbers.
- The `try`/`catch` around the per-key search in `extract` is not modelled: a parsed JSON tree cannot throw there.
- The `Json` type admits objects with a repeated key; `Lookup` takes the first binding, where `JSON.parse` keeps the last. Parsed objects have distinct keys (`DistinctKeys`), and `PointSource.LookupDistinct` shows that for those the two agree. The requirement is not imposed on the searches, whose properties hold for any object.
- The `fetch`/`res.json()` I/O, the `mounted` guard, the global curve slot, React hooks and context, console warnings, materials and textures are not modelled. These are I/O, framework and rendering code.
- The seeded `rand` phase stored with each base entry is not modelled, because it never affects placement. The unused `perFrameLerp` of the per-frame pass is left out for the same reason.
- Placement.InstancedMesh.FrameUpdate: when the `count` option is 0 while drawn slots remain, JavaScript computes NaN parameters. The method requires a positive `count` in that situation.
- Keyframes.Slerp: the library's numeric "same rotation" early exit is modelled as equality of the two orientations. The interpolated rotation itself is left symbolic.
- NaN and infinite timeline arguments are not modelled (`norm`, `tSec`, durations). They are reals in the model. A NaN `norm` makes `sampleKeyframes` read an undefined keyframe.
- SheetLayout.DetectSequenceLength: a string-valued length that `Number()` would parse is not recognised. The surrounding `try`/`catch` is not modelled.
- SheetLayout.ComputeLayout: requires a non-zero total duration when the sequence length is positive. With negative durations summing to 0, JavaScript divides by zero.
- SheetLayout.Sequence.SetPosition: models the `seq.position` branch only. The `setPosition`, `seek` and `pointer.position` fallbacks and the `try`/`catch` belong to the animation library's sequence object. That object is not part of this model.
- The unused `lastFramePos` and the final console report of registration are not modelled.
- Calling `play`/`pause` on a sheet sequence is not modelled. Playback is the animation library's.
- The effects of other wrappers (`src/registry/timelineWrapper.js`, `src/theatre/bootstrapRegister.js`) are not modelled. The registry describes them only by the operations they offer and their duration.
- `updateMatrixWorld` after the camera write is not modelled, because it is rendering.
- The external-control flag on the page is a parameter of the simulated seek.
- The registry global on `window` is not modelled.

=== FILE: arc_length.dfy ===
/** The arc-length sampled curve built from a loaded polyline: a table of cumulative
    segment lengths over the curve's sample points, a lower-bound binary search over
    that table, and interpolation inside the segment it selects.

    The Catmull-Rom fit and the Euclidean distances between consecutive samples are
    computed by the rendering library; here they are inputs: `points` are the points
    the fitted curve yields and `dists[k]` is the (non-negative) distance from
    `points[k]` to `points[k + 1]`. */
module ArcLength {
  import opened MathUtil

  /** Floor of the stored total length, so that it is never zero. */
  const MinTotalLength: real := 0.000001
  /** Floor of a segment's length when the local fraction is computed. */
  const MinSegmentLength: real := 0.000000001
  /** Least number of divisions asked of the fitted curve. */
  const MinDivisions: nat := 256

  /** What the builder returns: sample positions, their cumulative lengths, and the floored total. */
  datatype SampledCurve = SampledCurve(positions: seq<Vec3>, cumLengths: seq<real>, length: real)

  /** The segment a lookup lands on: `positions[index - 1]` to `positions[index]`, and how far along it. */
  datatype SegmentPos = SegmentPos(index: nat, frac: real)

  function Sum(s: seq<real>): real
  {
    if s == [] then 0.0 else Sum(s[..|s| - 1]) + s[|s| - 1]
  }

  predicate NonNegative(s: seq<real>)
  {
    forall k :: 0 <= k < |s| ==> 0.0 <= s[k]
  }

  predicate Sorted(s: seq<real>)
  {
    forall i, j :: 0 <= i <= j < |s| ==> s[i] <= s[j]
  }

  /** The shape every built curve has: one cumulative length per position, starting at
      zero, non-decreasing, never above the stored total, which is positive. */
  predicate Valid(c: SampledCurve)
  {
    && |c.positions| == |c.cumLengths| >= 2
    && c.cumLengths[0] == 0.0
    && Sorted(c.cumLengths)
    && c.cumLengths[|c.cumLengths| - 1] <= c.length
    && MinTotalLength <= c.length
  }

  /** Partial sums of non-negative lengths grow with the prefix. */
  lemma {:induction false} SumPrefixMonotone(d: seq<real>, i: nat, j: nat)
    requires NonNegative(d) && i <= j <= |d|
    ensures Sum(d[..i]) <= Sum(d[..j])
    decreases j - i
  {
    if i < j {
      SumPrefixMonotone(d, i, j - 1);
      assert d[..j][..j - 1] == d[..j - 1];
    }
  }

  lemma {:induction false} SumNonNegative(d: seq<real>)
    requires NonNegative(d)
    ensures 0.0 <= Sum(d)
  {
    SumPrefixMonotone(d, 0, |d|);
    assert d[..|d|] == d;
  }

  /** The number of divisions requested from the fitted curve, `max(256, samples)`;
      the fitted curve then yields one more point than that. */
  function Divisions(samples: nat): (r: nat)
    ensures MinDivisions <= r && samples <= r
  {
    if samples < MinDivisions then MinDivisions else samples
  }

  /** Builds the table for the `points` the fitted curve yields when asked for
      `Divisions(samples)` divisions: `null` for fewer than two control points, otherwise
      the cumulative lengths `Sum(dists[..i])` for every point `i`, and the total floored
      at 1e-6. */
  method BuildSampledCurve(controls: seq<Vec3>, samples: nat, points: seq<Vec3>, dists: seq<real>)
    returns (r: Option<SampledCurve>)
    requires |points| == Divisions(samples) + 1 && |dists| == |points| - 1 && NonNegative(dists)
    ensures r.None? <==> |controls| < 2
    ensures r.Some? ==> r.value.positions == points && |points| > MinDivisions
    ensures r.Some? ==> |r.value.cumLengths| == |points|
    ensures r.Some? ==> forall i :: 0 <= i < |points| ==> r.value.cumLengths[i] == Sum(dists[..i])
    ensures r.Some? ==> r.value.length == Max(MinTotalLength, Sum(dists))
    ensures r.Some? ==> Valid(r.value)
  {
    if |controls| < 2 {
      return None;
    }
    var lens := new real[|points|];
    var total := 0.0;
    lens[0] := 0.0;
    var i := 1;
    while i < |points|
      invariant 1 <= i <= |points|
      invariant total == Sum(dists[..i - 1])
      invariant forall k :: 0 <= k < i ==> lens[k] == Sum(dists[..k])
    {
      assert dists[..i][..i - 1] == dists[..i - 1];
      total := total + dists[i - 1];
      lens[i] := total;
      i := i + 1;
    }
    assert dists[..|points| - 1] == dists;
    var cum := lens[..];
    forall a, b | 0 <= a <= b < |cum| ensures cum[a] <= cum[b] {
      SumPrefixMonotone(dists, a, b);
    }
    SumNonNegative(dists);
    r := Some(SampledCurve(points, cum, Max(MinTotalLength, total)));
  }

  /** The reference lower bound: scanning up from `k`, the first index whose cumulative
      length is at least `target`, or the last index when there is none. */
  function FirstAtLeast(cum: seq<real>, target: real, k: nat): (r: nat)
    requires k < |cum|
    ensures k <= r < |cum|
    ensures r == |cum| - 1 || target <= cum[r]
    decreases |cum| - k
  {
    if k == |cum| - 1 || target <= cum[k] then k else FirstAtLeast(cum, target, k + 1)
  }

  lemma {:induction false} FirstAtLeastSkips(cum: seq<real>, target: real, k: nat)
    requires k < |cum|
    ensures forall j :: k <= j < FirstAtLeast(cum, target, k) ==> cum[j] < target
    decreases |cum| - k
  {
    if !(k == |cum| - 1 || target <= cum[k]) {
      FirstAtLeastSkips(cum, target, k + 1);
    }
  }

  /** Any index that passes over only entries below the target, and stops at one that
      is not (or at the last index), is the reference lower bound. */
  lemma {:induction false} FirstAtLeastUnique(cum: seq<real>, target: real, k: nat, lo: nat)
    requires k <= lo < |cum|
    requires forall j :: k <= j < lo ==> cum[j] < target
    requires lo == |cum| - 1 || target <= cum[lo]
    ensures lo == FirstAtLeast(cum, target, k)
    decreases |cum| - k
  {
    if k < lo {
      FirstAtLeastUnique(cum, target, k + 1, lo);
    }
  }

  /** A larger target never makes the lower bound move back. */
  lemma {:induction false} FirstAtLeastMonotone(cum: seq<real>, t1: real, t2: real, k: nat)
    requires k < |cum| && t1 <= t2
    ensures FirstAtLeast(cum, t1, k) <= FirstAtLeast(cum, t2, k)
    decreases |cum| - k
  {
    if !(k == |cum| - 1 || t1 <= cum[k]) {
      FirstAtLeastMonotone(cum, t1, t2, k + 1);
    }
  }

  /** The binary search of `getPointAt`: `lo` ends at the first index whose cumulative
      length is at least `target`, or at the last index when there is none. */
  method LowerBound(cum: seq<real>, target: real) returns (lo: nat)
    requires 1 <= |cum| && Sorted(cum)
    ensures lo < |cum|
    ensures forall j :: 0 <= j < lo ==> cum[j] < target
    ensures lo == |cum| - 1 || target <= cum[lo]
    ensures lo == FirstAtLeast(cum, target, 0)
  {
    lo := 0;
    var hi := |cum| - 1;
    while lo < hi
      invariant 0 <= lo <= hi <= |cum| - 1
      invariant forall j :: 0 <= j < lo ==> cum[j] < target
      invariant hi == |cum| - 1 || target <= cum[hi]
    {
      var mid := (lo + hi) / 2;
      if cum[mid] < target {
        lo := mid + 1;
      } else {
        hi := mid;
      }
    }
    FirstAtLeastUnique(cum, target, 0, lo);
  }

  /** The lookup length: the parameter clamped to [0,1] (non-finite counts as 0) times the total. */
  function TargetLength(c: SampledCurve, t: Num): (r: real)
    requires Valid(c)
    ensures 0.0 <= r <= c.length
    ensures t.NonFinite? ==> r == 0.0
    ensures t.Finite? && t.value <= 0.0 ==> r == 0.0
    ensures t.Finite? && 1.0 <= t.value ==> r == c.length
  {
    var u := if t.Finite? then Clamp(t.value, 0.0, 1.0) else 0.0;
    FractionOf(c.length, u);
    u * c.length
  }

  /** Segment selection: index `max(1, lo)` for the lower bound `lo` of the target, and the
      target's position inside that segment, clamped to [0,1]. */
  function Locate(c: SampledCurve, target: real): (s: SegmentPos)
    requires Valid(c)
    ensures 1 <= s.index < |c.positions|
    ensures 0.0 <= s.frac <= 1.0
  {
    var lo := FirstAtLeast(c.cumLengths, target, 0);
    var i := if lo < 1 then 1 else lo;
    var l0 := c.cumLengths[i - 1];
    var seg := Max(MinSegmentLength, c.cumLengths[i] - l0);
    SegmentPos(i, Clamp((target - l0) / seg, 0.0, 1.0))
  }

  /** The point `getPointAt` returns for parameter `t`. */
  function PointOnCurve(c: SampledCurve, t: Num): Vec3
    requires Valid(c)
  {
    var s := Locate(c, TargetLength(c, t));
    Lerp(c.positions[s.index - 1], c.positions[s.index], s.frac)
  }

  /** `getPointAt`: clamp, scale to a length, binary-search the table, interpolate. */
  method PointAt(c: SampledCurve, t: Num) returns (p: Vec3)
    requires Valid(c)
    ensures p == PointOnCurve(c, t)
  {
    var targetLen := TargetLength(c, t);
    var lo := LowerBound(c.cumLengths, targetLen);
    var i := if lo < 1 then 1 else lo;
    var l0, l1 := c.cumLengths[i - 1], c.cumLengths[i];
    var seg := Max(MinSegmentLength, l1 - l0);
    var localU := Clamp((targetLen - l0) / seg, 0.0, 1.0);
    assert Locate(c, targetLen) == SegmentPos(i, localU);
    p := Lerp(c.positions[i - 1], c.positions[i], localU);
  }

  /** Within the table's range, the selected segment brackets the target length. */
  lemma LocateBrackets(c: SampledCurve, target: real)
    requires Valid(c) && 0.0 <= target <= c.cumLengths[|c.cumLengths| - 1]
    ensures var s := Locate(c, target);
      c.cumLengths[s.index - 1] <= target <= c.cumLengths[s.index]
  {
    var cum := c.cumLengths;
    var lo := FirstAtLeast(cum, target, 0);
    FirstAtLeastSkips(cum, target, 0);
    if lo == |cum| - 1 {
      assert target <= cum[lo];
    }
  }

  /** Parameter 0, anything below it and a non-finite parameter all give the first sample. */
  lemma PointAtStart(c: SampledCurve, t: Num)
    requires Valid(c)
    requires t.NonFinite? || t.value <= 0.0
    ensures PointOnCurve(c, t) == c.positions[0]
  {
    assert Locate(c, 0.0) == SegmentPos(1, 0.0);
  }

  /** Parameter 1 and above give the last sample whenever the last segment is not
      shorter than the 1e-9 floor, whatever the 1e-6 floor on the total does. */
  lemma PointAtEnd(c: SampledCurve, t: Num)
    requires Valid(c)
    requires t.Finite? && 1.0 <= t.value
    requires c.cumLengths[|c.cumLengths| - 2] + MinSegmentLength <= c.cumLengths[|c.cumLengths| - 1]
    ensures PointOnCurve(c, t) == c.positions[|c.positions| - 1]
  {
    var cum := c.cumLengths;
    var n := |cum|;
    assert TargetLength(c, t) == c.length;
    assert forall j :: 0 <= j < n - 1 ==> cum[j] < c.length by {
      forall j | 0 <= j < n - 1
        ensures cum[j] < c.length
      {
        assert cum[j] <= cum[n - 2];
      }
    }
    FirstAtLeastUnique(cum, c.length, 0, n - 1);
    var seg := cum[n - 1] - cum[n - 2];
    assert Max(MinSegmentLength, seg) == seg;
    DivideMonotone(seg, c.length - cum[n - 2], seg);
    assert seg / seg == 1.0;
    assert Locate(c, c.length) == SegmentPos(n - 1, 1.0);
  }

  /** "Before or at": the ordering of positions along the sampled polyline. */
  predicate NotAfter(s1: SegmentPos, s2: SegmentPos)
  {
    s1.index < s2.index || (s1.index == s2.index && s1.frac <= s2.frac)
  }

  lemma DivideMonotone(a: real, b: real, d: real)
    requires a <= b && 0.0 < d
    ensures a / d <= b / d
  {
    assert b / d - a / d == (b - a) / d;
  }

  /** A longer target length never selects an earlier place on the polyline: moving the
      parameter forward never backtracks. */
  lemma LocateMonotone(c: SampledCurve, t1: real, t2: real)
    requires Valid(c) && t1 <= t2
    ensures NotAfter(Locate(c, t1), Locate(c, t2))
  {
    FirstAtLeastMonotone(c.cumLengths, t1, t2, 0);
    var s1, s2 := Locate(c, t1), Locate(c, t2);
    if s1.index == s2.index {
      var l0 := c.cumLengths[s1.index - 1];
      var seg := Max(MinSegmentLength, c.cumLengths[s1.index] - l0);
      DivideMonotone(t1 - l0, t2 - l0, seg);
      ClampMonotone((t1 - l0) / seg, (t2 - l0) / seg, 0.0, 1.0);
    }
  }

  /** Step of the tangent's central difference: `1 / max(1000, samples)`. */
  function TangentStep(samples: nat): (r: real)
    ensures 0.0 < r <= 0.001
  {
    if samples < 1000 then 0.001 else 1.0 / samples as real
  }

  /** The un-normalised difference `getTangentAt` takes before normalising: the point at
      `min(1, t + eps)` minus the point at `max(0, t - eps)`. */
  method TangentAt(c: SampledCurve, t: real, samples: nat) returns (d: Vec3)
    requires Valid(c)
    ensures var ps := DifferenceParams(t, TangentStep(samples));
      var p0, p1 := PointOnCurve(c, Finite(ps.0)), PointOnCurve(c, Finite(ps.1));
      d == Vec3(p1.x - p0.x, p1.y - p0.y, p1.z - p0.z)
  {
    var eps := TangentStep(samples);
    var ps := DifferenceParams(t, eps);
    var p0 := PointAt(c, Finite(ps.0));
    var p1 := PointAt(c, Finite(ps.1));
    d := Vec3(p1.x - p0.x, p1.y - p0.y, p1.z - p0.z);
  }

  /** A parameter that clamps to a later place gives a longer target length. */
  lemma TargetLengthMonotone(c: SampledCurve, t1: real, t2: real)
    requires Valid(c) && Clamp(t1, 0.0, 1.0) <= Clamp(t2, 0.0, 1.0)
    ensures TargetLength(c, Finite(t1)) <= TargetLength(c, Finite(t2))
  {
    var u1, u2 := Clamp(t1, 0.0, 1.0), Clamp(t2, 0.0, 1.0);
    assert u2 * c.length - u1 * c.length == (u2 - u1) * c.length;
    FractionOf(c.length, u2 - u1);
  }

  /** The two points of the difference are sampled in path order: the first is never
      further along the polyline than the second. */
  lemma TangentSamplesOrdered(c: SampledCurve, t: real, samples: nat)
    requires Valid(c)
    ensures var ps := DifferenceParams(t, TangentStep(samples));
      NotAfter(Locate(c, TargetLength(c, Finite(ps.0))), Locate(c, TargetLength(c, Finite(ps.1))))
  {
    var ps := DifferenceParams(t, TangentStep(samples));
    assert Clamp(ps.0, 0.0, 1.0) <= Clamp(ps.1, 0.0, 1.0);
    TargetLengthMonotone(c, ps.0, ps.1);
    LocateMonotone(c, TargetLength(c, Finite(ps.0)), TargetLength(c, Finite(ps.1)));
  }
}

=== FILE: keyframes.dfy ===
/** The simulated camera timelines: a short list of keyframes (position and orientation)
    sampled at a normalized time, with positions interpolated linearly and orientations
    spherically between the two neighbouring keyframes. */
module Keyframes {
  import opened MathUtil

  /** A rotation, left uninterpreted: one built from Euler angles, or the spherical
      interpolation of two others at a fraction. */
  datatype Orientation =
    | FromEuler(ex: real, ey: real, ez: real)
    | Slerped(from: Orientation, to: Orientation, t: real)

  /** Spherical interpolation with the rendering library's early exits: the start at
      fraction 0, the end at fraction 1, and the start when both ends are the same. */
  function Slerp(a: Orientation, b: Orientation, t: real): (r: Orientation)
    ensures t == 0.0 ==> r == a
    ensures t == 1.0 ==> r == b
    ensures a == b ==> r == a
    ensures r != a && r != b ==> r == Slerped(a, b, t) && t != 0.0 && t != 1.0
  {
    if t == 0.0 then a
    else if t == 1.0 then b
    else if a == b then a
    else Slerped(a, b, t)
  }

  datatype Keyframe = Keyframe(p: Vec3, q: Orientation)

  /** A sampled camera pose. */
  datatype Pose = Pose(p: Vec3, q: Orientation)

  /** The two neighbouring keyframe indices and the fraction between them. */
  datatype Bracket = Bracket(a: nat, b: nat, frac: real)

  function MinNat(a: nat, b: nat): nat { if a <= b then a else b }

  /** Clamp the normalized time to [0,1], scale it by `len - 1`, and split it into a floor
      index and a fraction; both neighbour indices are capped at the last keyframe. */
  function BracketAt(len: nat, norm: real): (r: Bracket)
    requires 1 <= len
    ensures r.a < len && r.b < len
    ensures r.b == r.a + 1 || r.b == r.a == len - 1
    ensures 0.0 <= r.frac < 1.0
    ensures r.a as real + r.frac == (len - 1) as real * Clamp(norm, 0.0, 1.0)
  {
    var n := Clamp(norm, 0.0, 1.0);
    var seg := (len - 1) as real * n;
    FractionOf((len - 1) as real, n);
    var i := seg.Floor;
    Bracket(MinNat(i, len - 1), MinNat(i + 1, len - 1), seg - i as real)
  }

  /** The pose at normalized time `norm` (sampleKeyframes). */
  function SampleKeyframes(kfs: seq<Keyframe>, norm: real): (r: Pose)
    requires 1 <= |kfs|
    ensures |kfs| == 1 ==> r == Pose(kfs[0].p, kfs[0].q)
    ensures var br := BracketAt(|kfs|, norm);
      r.q in {kfs[br.a].q, kfs[br.b].q, Slerped(kfs[br.a].q, kfs[br.b].q, br.frac)}
  {
    var br := BracketAt(|kfs|, norm);
    var a := kfs[br.a];
    var b := kfs[br.b];
    Pose(Lerp(a.p, b.p, br.frac), Slerp(a.q, b.q, br.frac))
  }

  /** At or before the start, the sample is the first keyframe. */
  lemma SampleAtStart(kfs: seq<Keyframe>, norm: real)
    requires 1 <= |kfs| && norm <= 0.0
    ensures SampleKeyframes(kfs, norm) == Pose(kfs[0].p, kfs[0].q)
  {
    var br := BracketAt(|kfs|, norm);
    assert (0.0).Floor == 0;
    assert br.a == 0 && br.frac == 0.0;
  }

  /** At or after the end, the sample is the last keyframe. */
  lemma SampleAtEnd(kfs: seq<Keyframe>, norm: real)
    requires 1 <= |kfs| && 1.0 <= norm
    ensures SampleKeyframes(kfs, norm) == Pose(kfs[|kfs| - 1].p, kfs[|kfs| - 1].q)
  {
    var n := |kfs| - 1;
    assert (n as real).Floor == n;
    var br := BracketAt(|kfs|, norm);
    assert br.a == n && br.frac == 0.0;
  }

  /** The samples pass through every keyframe: keyframe k is reached at time k / (len - 1). */
  lemma SampleAtKeyframe(kfs: seq<Keyframe>, k: nat)
    requires 2 <= |kfs| && k < |kfs|
    ensures SampleKeyframes(kfs, k as real / (|kfs| - 1) as real) == Pose(kfs[k].p, kfs[k].q)
  {
    var m := (|kfs| - 1) as real;
    var norm := k as real / m;
    assert norm * m == k as real;
    assert 0.0 <= norm;
    QuotientInUnit(k as real, m);
    assert Clamp(norm, 0.0, 1.0) == norm;
    assert (k as real).Floor == k;
    var br := BracketAt(|kfs|, norm);
    assert br.a == k && br.frac == 0.0;
  }

  /** Every coordinate of the sampled position lies between the matching coordinates of the
      two neighbouring keyframes. */
  lemma SampleBetweenNeighbours(kfs: seq<Keyframe>, norm: real)
    requires 1 <= |kfs|
    ensures var br := BracketAt(|kfs|, norm);
      var p := SampleKeyframes(kfs, norm).p;
      && Between(p.x, kfs[br.a].p.x, kfs[br.b].p.x)
      && Between(p.y, kfs[br.a].p.y, kfs[br.b].p.y)
      && Between(p.z, kfs[br.a].p.z, kfs[br.b].p.z)
  {
    var br := BracketAt(|kfs|, norm);
    LerpBetween(kfs[br.a].p, kfs[br.b].p, br.frac);
  }

  /** Seconds to normalized time for a simulated timeline: `tSec / duration`, and 0 when the
      duration is 0. */
  function SecondsToNorm(duration: real, tSec: real): (r: real)
    ensures duration == 0.0 ==> r == 0.0
    ensures 0.0 < duration && 0.0 <= tSec <= duration ==> 0.0 <= r <= 1.0
  {
    if duration != 0.0 then
      var r := tSec / duration;
      assert 0.0 < duration && 0.0 <= tSec <= duration ==> r <= 1.0 by {
        if 0.0 < duration && 0.0 <= tSec <= duration {
          QuotientInUnit(tSec, duration);
        }
      }
      r
    else 0.0
  }

  /** Seeking `n * duration` seconds on a timeline of non-zero duration reaches time `n`. */
  lemma SecondsToNormRoundTrip(duration: real, n: real)
    requires duration != 0.0
    ensures SecondsToNorm(duration, n * duration) == n
  {
    var q := n * duration / duration;
    assert q * duration == n * duration;
    assert (q - n) * duration == 0.0;
  }

  /** The keyframes of the simulated theatreA timeline. */
  const KeyA: seq<Keyframe> := [
    Keyframe(Vec3(0.0, 6.0, 18.0), FromEuler(0.0, 0.0, 0.0)),
    Keyframe(Vec3(0.0, 4.0, 10.0), FromEuler(-0.1, 0.2, 0.0)),
    Keyframe(Vec3(0.0, 3.0, 6.0), FromEuler(-0.12, 0.5, 0.0))
  ]

  /** The keyframes of the simulated theatreB timeline. */
  const KeyB: seq<Keyframe> := [
    Keyframe(Vec3(2.0, 8.0, 20.0), FromEuler(-0.05, -0.2, 0.0)),
    Keyframe(Vec3(0.0, 5.0, 12.0), FromEuler(-0.08, 0.1, 0.0)),
    Keyframe(Vec3(-1.0, 3.5, 7.0), FromEuler(-0.12, 0.4, 0.0))
  ]

  /** Halfway through theatreA the camera is at the middle keyframe; a quarter of the way it
      is halfway between the first two positions. */
  lemma KeyAMidpoints()
    ensures SampleKeyframes(KeyA, 0.5) == Pose(Vec3(0.0, 4.0, 10.0), FromEuler(-0.1, 0.2, 0.0))
    ensures SampleKeyframes(KeyA, 0.25).p == Vec3(0.0, 5.0, 14.0)
  {
    assert (1.0).Floor == 1;
    assert (0.5).Floor == 0;
  }
}

=== FILE: mathutil.dfy ===
/** Numbers and vectors shared by the path sampler, the placement passes and the
    keyframe sampler: JavaScript numbers as reals with an explicit finiteness flag,
    three-component vectors, clamping and linear interpolation. */
module MathUtil {

  datatype Option<+T> = None | Some(value: T)

  /** A JavaScript number: a finite value, or NaN / an infinity. */
  datatype Num = Finite(value: real) | NonFinite

  datatype Vec3 = Vec3(x: real, y: real, z: real)

  function Min(a: real, b: real): real { if a <= b then a else b }

  function Max(a: real, b: real): real { if a >= b then a else b }

  /** `Math.max(lo, Math.min(hi, v))`, the clamp used throughout (and THREE.MathUtils.clamp).
      When `hi < lo` the lower bound wins, as it does in JavaScript. */
  function Clamp(v: real, lo: real, hi: real): (r: real)
    ensures lo <= r
    ensures lo <= hi ==> r <= hi
    ensures lo <= v <= hi ==> r == v
    ensures v <= lo ==> r == lo
    ensures lo <= hi <= v ==> r == hi
  {
    Max(lo, Min(hi, v))
  }

  /** Clamping is monotone in the clamped value. */
  lemma ClampMonotone(v: real, w: real, lo: real, hi: real)
    requires v <= w
    ensures Clamp(v, lo, hi) <= Clamp(w, lo, hi)
  {
  }

  /** Component-wise `a + (b - a) * t` (lerpVec3, and three.js `lerpVectors`). */
  function Lerp(a: Vec3, b: Vec3, t: real): (r: Vec3)
    ensures t == 0.0 ==> r == a
    ensures t == 1.0 ==> r == b
    ensures a == b ==> r == a
  {
    Vec3(a.x + (b.x - a.x) * t, a.y + (b.y - a.y) * t, a.z + (b.z - a.z) * t)
  }

  predicate Between(v: real, a: real, b: real)
  {
    (a <= v <= b) || (b <= v <= a)
  }

  /** A fraction of a non-negative amount lies between zero and the amount. */
  lemma FractionOf(d: real, t: real)
    requires 0.0 <= d && 0.0 <= t <= 1.0
    ensures 0.0 <= d * t <= d
  {
    assert d - d * t == d * (1.0 - t);
  }

  lemma LerpScalarBetween(a: real, b: real, t: real)
    requires 0.0 <= t <= 1.0
    ensures Between(a + (b - a) * t, a, b)
  {
    var d := b - a;
    if 0.0 <= d {
      FractionOf(d, t);
      assert a <= a + d * t <= b;
    } else {
      FractionOf(-d, t);
      assert (-d) * t == -(d * t);
      assert b <= a + d * t <= a;
    }
  }

  /** For a fraction in [0,1] every coordinate of the interpolated point lies between
      the matching coordinates of the two end points: the result is on the segment. */
  lemma LerpBetween(a: Vec3, b: Vec3, t: real)
    requires 0.0 <= t <= 1.0
    ensures Between(Lerp(a, b, t).x, a.x, b.x)
    ensures Between(Lerp(a, b, t).y, a.y, b.y)
    ensures Between(Lerp(a, b, t).z, a.z, b.z)
  {
    LerpScalarBetween(a.x, b.x, t);
    LerpScalarBetween(a.y, b.y, t);
    LerpScalarBetween(a.z, b.z, t);
  }

  /** A non-negative amount divided by a positive bound it does not exceed lies in [0,1],
      strictly below 1 when the amount is below the bound. */
  lemma QuotientInUnit(a: real, c: real)
    requires 0.0 < c && 0.0 <= a <= c
    ensures 0.0 <= a / c <= 1.0
    ensures a < c ==> a / c < 1.0
    ensures 0.0 < a ==> 0.0 < a / c
  {
    var q := a / c;
    assert q * c == a;
    if q < 0.0 {
      MulNonPos(q, c);
    }
    if a < c {
      assert (1.0 - q) * c == c - a;
      if 1.0 - q <= 0.0 {
        MulNonPos(1.0 - q, c);
      }
    }
    if 0.0 < a && q <= 0.0 {
      MulNonPos(q, c);
    }
  }

  /** A non-positive number times a positive one is not positive. */
  lemma MulNonPos(x: real, y: real)
    requires x <= 0.0 && 0.0 < y
    ensures x * y <= 0.0
  {
    assert x * y == -((-x) * y);
  }

  /** The two parameters of a finite-difference tangent: `max(0, t - eps)` and `min(1, t + eps)`. */
  function DifferenceParams(t: real, eps: real): (r: (real, real))
    requires 0.0 < eps
    ensures 0.0 <= r.0 && r.1 <= 1.0
    ensures 0.0 <= t <= 1.0 ==> r.0 <= t <= r.1
    ensures 0.0 <= t <= 1.0 ==> r.0 < r.1
  {
    (Max(0.0, t - eps), Min(1.0, t + eps))
  }
}

=== FILE: placement.dfy ===
/** Placement of the instanced bricks along the path: the per-slot curve parameter,
    the outward distance, and the two passes that write the instance slots (the base
    pass, run when the configuration changes, and the per-frame pass).

    The geometry of a slot (curve point, radial direction, basis, quaternion, matrix)
    is computed by the rendering library from the slot parameter, the outward distance
    and the direction the brick faces; a slot's transform is recorded here as exactly
    those three inputs. */
module Placement {
  import opened MathUtil

  /** Step of the per-frame finite-difference tangent. */
  const FrameTangentStep: real := 0.001

  /** The component's placement options. */
  datatype Config = Config(
    count: nat,
    scale: real,
    depth: real,          // brick.depth
    radialOffset: real,
    startOffset: real,
    reverse: bool)        // reverseStart

  /** Which way a brick's depth axis points: along the horizontal radial direction (base
      pass), or along the finite difference of the curve between parameters `from` and
      `to`, negated when the start is reversed (per-frame pass). */
  datatype Facing = FacesRadial | FacesTangent(from: real, to: real, negated: bool)

  /** The transform held by one instance slot. */
  datatype InstanceTransform =
    | Identity
    | Placed(param: real, outward: real, facing: Facing)

  function Ceil(x: real): int
  {
    -((-x).Floor)
  }

  /** JavaScript's `x % 1`: the fractional part, carrying the sign of `x`. */
  function RemOne(x: real): (r: real)
    ensures 0.0 <= x ==> 0.0 <= r < 1.0
    ensures x < 0.0 ==> -1.0 < r <= 0.0
    ensures 0.0 <= x ==> x - r == x.Floor as real
  {
    if 0.0 <= x then x - x.Floor as real else x - Ceil(x) as real
  }

  /** `t = 1 - t; if (t < 0) t += 1`. */
  function Reversed(t: real): (r: real)
    ensures t <= 1.0 ==> r == 1.0 - t
    ensures 0.0 <= t < 1.0 ==> 0.0 < r <= 1.0
    ensures 1.0 < t ==> r == 2.0 - t
  {
    var u := 1.0 - t;
    if u < 0.0 then u + 1.0 else u
  }

  /** The parameter of slot `i`: `((i + 0.5) / count + startOffset) % 1`, reversed on request. */
  function SlotParam(i: nat, count: nat, startOffset: real, reverse: bool): (r: real)
    requires 0 < count
    ensures !reverse ==> -1.0 < r < 1.0
    ensures reverse ==> 0.0 < r < 2.0
  {
    var t := RemOne((i as real + 0.5) / count as real + startOffset);
    if reverse then Reversed(t) else t
  }

  /** With a non-negative start offset the parameter lies in [0,1), and in (0,1] reversed. */
  lemma SlotParamRange(i: nat, count: nat, startOffset: real, reverse: bool)
    requires 0 < count && 0.0 <= startOffset
    ensures !reverse ==> 0.0 <= SlotParam(i, count, startOffset, reverse) < 1.0
    ensures reverse ==> 0.0 < SlotParam(i, count, startOffset, reverse) <= 1.0
  {
    assert 0.0 <= (i as real + 0.5) / count as real;
  }

  /** Reversal is `1 - t` for every start offset: the remainder is above -1, so the
      `t < 0` correction after `1 - t` never applies. */
  lemma ReversedIsComplement(i: nat, count: nat, startOffset: real)
    requires 0 < count
    ensures SlotParam(i, count, startOffset, true) == 1.0 - SlotParam(i, count, startOffset, false)
  {
  }

  /** A negative start offset takes the parameter out of [0,1] in both directions: for 40
      slots and offset -0.9, slot 0 gets -0.8875, and 1.8875 reversed. */
  lemma NegativeOffsetLeavesUnitRange()
    ensures SlotParam(0, 40, -0.9, false) == -0.8875
    ensures SlotParam(0, 40, -0.9, true) == 1.8875
  {
    var x := (0 as real + 0.5) / 40 as real + -0.9;
    assert x == -0.8875;
    assert (-x).Floor == 0;
  }

  /** One slot with no offset sits at the middle of the curve. */
  lemma SingleSlotAtMiddle()
    ensures SlotParam(0, 1, 0.0, false) == 0.5
  {
    assert (0.5).Floor == 0;
  }

  /** With a non-negative offset, distinct slots get distinct parameters (forward or
      reversed): no two bricks are placed at the same point of the curve. */
  lemma SlotParamsDistinct(i: nat, j: nat, count: nat, startOffset: real, reverse: bool)
    requires i < count && j < count && i != j && 0.0 <= startOffset
    ensures SlotParam(i, count, startOffset, reverse) != SlotParam(j, count, startOffset, reverse)
  {
    if i < j {
      SlotParamsDistinctOrdered(i, j, count, startOffset);
    } else {
      SlotParamsDistinctOrdered(j, i, count, startOffset);
    }
  }

  lemma SlotParamsDistinctOrdered(i: nat, j: nat, count: nat, startOffset: real)
    requires i < j < count && 0.0 <= startOffset
    ensures SlotParam(i, count, startOffset, false) != SlotParam(j, count, startOffset, false)
  {
    var c := count as real;
    var xi := (i as real + 0.5) / c + startOffset;
    var xj := (j as real + 0.5) / c + startOffset;
    assert xj - xi == (j - i) as real / c;
    QuotientInUnit((j - i) as real, c);
    assert 0.0 <= xi;
    assert RemOne(xj) - RemOne(xi) == (j - i) as real / c - (xj.Floor - xi.Floor) as real;
  }

  /** Outward distance from the curve: `(depth / 2 + radialOffset) * scale`. */
  function OutwardDistance(cfg: Config): (r: real)
    ensures 0.0 <= cfg.depth / 2.0 + cfg.radialOffset && 0.0 <= cfg.scale ==> 0.0 <= r
    ensures cfg.radialOffset == 0.0 ==> r == cfg.depth * cfg.scale / 2.0
  {
    (cfg.depth / 2.0 + cfg.radialOffset) * cfg.scale
  }

  /** The slot transform of the base pass: faces the radial direction. */
  function BaseTransform(cfg: Config, i: nat): (r: InstanceTransform)
    requires i < cfg.count
    ensures r.Placed? && r.facing == FacesRadial && r.outward == OutwardDistance(cfg)
    ensures r.param == SlotParam(i, cfg.count, cfg.startOffset, cfg.reverse)
    ensures 0.0 <= cfg.startOffset ==> 0.0 <= r.param <= 1.0
  {
    assert 0.0 <= cfg.startOffset ==> 0.0 <= SlotParam(i, cfg.count, cfg.startOffset, cfg.reverse) <= 1.0 by {
      if 0.0 <= cfg.startOffset {
        SlotParamRange(i, cfg.count, cfg.startOffset, cfg.reverse);
      }
    }
    Placed(SlotParam(i, cfg.count, cfg.startOffset, cfg.reverse), OutwardDistance(cfg), FacesRadial)
  }

  /** The slot transform of the per-frame pass: faces the tangent taken between
      `max(0, t - 0.001)` and `min(1, t + 0.001)`, negated when reversed. */
  function FrameTransform(cfg: Config, i: nat): (r: InstanceTransform)
    requires 0 < cfg.count
    ensures r.Placed? && r.facing.FacesTangent? && r.outward == OutwardDistance(cfg)
    ensures r.param == SlotParam(i, cfg.count, cfg.startOffset, cfg.reverse)
    ensures 0.0 <= r.facing.from && r.facing.to <= 1.0
    ensures r.facing.negated == cfg.reverse
  {
    var t := SlotParam(i, cfg.count, cfg.startOffset, cfg.reverse);
    var ps := DifferenceParams(t, FrameTangentStep);
    Placed(t, OutwardDistance(cfg), FacesTangent(ps.0, ps.1, cfg.reverse))
  }

  /** Both passes put a slot at the same parameter and the same outward distance; only the
      facing differs. */
  lemma PassesAgree(cfg: Config, i: nat)
    requires i < cfg.count
    ensures BaseTransform(cfg, i).param == FrameTransform(cfg, i).param
    ensures BaseTransform(cfg, i).outward == FrameTransform(cfg, i).outward
    ensures BaseTransform(cfg, i).outward == (cfg.depth / 2.0 + cfg.radialOffset) * cfg.scale
  {
  }

  /** With a non-negative offset, the per-frame tangent samples stay in [0,1] around the
      slot's parameter, and the tangent is negated exactly when the start is reversed. */
  lemma FrameTangentSamples(cfg: Config, i: nat)
    requires 0 < cfg.count && 0.0 <= cfg.startOffset
    ensures var m := FrameTransform(cfg, i);
      && 0.0 <= m.facing.from <= m.param <= m.facing.to <= 1.0
      && m.facing.from < m.facing.to
      && m.facing.negated == cfg.reverse
  {
    SlotParamRange(i, cfg.count, cfg.startOffset, cfg.reverse);
  }

  /** The base entries, in index order. */
  function BaseTransforms(cfg: Config): (r: seq<InstanceTransform>)
    ensures |r| == cfg.count
  {
    seq(cfg.count, k requires 0 <= k < cfg.count => BaseTransform(cfg, k))
  }

  /** 0, 1, ..., n - 1. */
  ghost function Indices(n: nat): (r: seq<nat>)
    ensures |r| == n && forall k :: 0 <= k < n ==> r[k] == k
  {
    seq(n, k requires 0 <= k < n => k)
  }

  /** The instanced mesh: its slot buffer, its drawn count, and the cached base entries. */
  class InstancedMesh {
    const matrices: array<InstanceTransform>
    var count: nat
    var baseMats: Option<seq<InstanceTransform>>
    var needsUpdate: bool
    /** The slots written, in the order they were written. */
    ghost var writes: seq<nat>

    ghost predicate Valid()
      reads this
    {
      count <= matrices.Length
    }

    /** A mesh created for `max(1, instances)` slots, all holding the identity. */
    constructor (instances: nat)
      ensures Valid() && fresh(matrices)
      ensures matrices.Length == (if instances < 1 then 1 else instances)
      ensures count == matrices.Length
      ensures forall k :: 0 <= k < matrices.Length ==> matrices[k] == Identity
      ensures baseMats.None? && !needsUpdate && writes == []
    {
      var capacity := if instances < 1 then 1 else instances;
      matrices := new InstanceTransform[capacity](_ => Identity);
      count := capacity;
      baseMats := None;
      needsUpdate := false;
      writes := [];
    }

    /** The base pass: writes slots 0 .. count-1 once each, in order, records the same
      `count` entries as the base cache, and sets the drawn count. */
    method BuildBase(cfg: Config)
      requires Valid() && cfg.count <= matrices.Length
      modifies this, matrices
      ensures Valid()
      ensures count == cfg.count && needsUpdate
      ensures baseMats == Some(BaseTransforms(cfg))
      ensures forall k :: 0 <= k < cfg.count ==> matrices[k] == BaseTransform(cfg, k)
      ensures forall k :: cfg.count <= k < matrices.Length ==> matrices[k] == old(matrices[k])
      ensures writes == old(writes) + Indices(cfg.count)
    {
      var base: seq<InstanceTransform> := [];
      var i := 0;
      while i < cfg.count
        invariant 0 <= i <= cfg.count
        invariant base == BaseTransforms(cfg)[..i]
        invariant forall k :: 0 <= k < i ==> matrices[k] == BaseTransform(cfg, k)
        invariant forall k :: i <= k < matrices.Length ==> matrices[k] == old(matrices[k])
        invariant writes == old(writes) + Indices(i)
      {
        var m := BaseTransform(cfg, i);
        matrices[i] := m;
        writes := writes + [i];
        base := base + [m];
        i := i + 1;
      }
      assert BaseTransforms(cfg)[..cfg.count] == BaseTransforms(cfg);
      count := cfg.count;
      needsUpdate := true;
      baseMats := Some(base);
    }

    /** The per-frame pass: nothing without a base cache; otherwise rewrites, in order,
      exactly the slots below `min(base entries, drawn count)`, at the parameters of the
      current `count` option. */
    method FrameUpdate(cfg: Config)
      requires Valid()
      requires baseMats.Some? && 0 < |baseMats.value| && 0 < count ==> 0 < cfg.count
      modifies this, matrices
      ensures Valid()
      ensures count == old(count) && baseMats == old(baseMats)
      ensures old(baseMats).None? ==>
        needsUpdate == old(needsUpdate) && writes == old(writes) && matrices[..] == old(matrices[..])
      ensures old(baseMats).Some? ==>
        var n := if |baseMats.value| < count then |baseMats.value| else count;
        && needsUpdate
        && writes == old(writes) + Indices(n)
        && (forall k :: 0 <= k < n ==> matrices[k] == FrameTransform(cfg, k))
        && (forall k :: n <= k < matrices.Length ==> matrices[k] == old(matrices[k]))
    {
      if baseMats.None? {
        return;
      }
      var n := if |baseMats.value| < count then |baseMats.value| else count;
      var i := 0;
      while i < n
        invariant 0 <= i <= n
        invariant count == old(count) && baseMats == old(baseMats)
        invariant forall k :: 0 <= k < i ==> matrices[k] == FrameTransform(cfg, k)
        invariant forall k :: i <= k < matrices.Length ==> matrices[k] == old(matrices[k])
        invariant writes == old(writes) + Indices(i)
      {
        matrices[i] := FrameTransform(cfg, i);
        writes := writes + [i];
        i := i + 1;
      }
      needsUpdate := true;
    }
  }
}

=== FILE: point_source.dfy ===
/** Reading a path document: a permissive search for the array of point-like entries
    somewhere in a parsed JSON tree, then a filter that turns the entries of that array
    into finite 3D points, in order. */
module PointSource {
  import opened MathUtil

  /** A parsed JSON value. An object is its fields in `Object.keys` order; a number
      that overflowed while parsing is `JNumber(NonFinite)`. */
  datatype Json =
    | JNull
    | JBool(b: bool)
    | JNumber(n: Num)
    | JString(s: string)
    | JArray(items: seq<Json>)
    | JObject(fields: seq<(string, Json)>)

  /** Keys tried, in this order, before any other key of an object. */
  const PreferredKeys: seq<string> := ["points", "vertices", "verts", "positions", "coords", "data", "geometry"]

  /** JavaScript truthiness. An overflowed number is an infinity, which is truthy. */
  predicate Truthy(v: Json)
  {
    match v
    case JNull => false
    case JBool(b) => b
    case JNumber(n) => n.NonFinite? || n.value != 0.0
    case JString(s) => s != ""
    case _ => true
  }

  /** Index of the first field named `k`, if any. */
  function KeyIndex(fields: seq<(string, Json)>, k: string): (r: Option<nat>)
    ensures r.Some? ==> r.value < |fields| && fields[r.value].0 == k
    ensures r.Some? ==> forall i :: 0 <= i < r.value ==> fields[i].0 != k
    ensures r.None? ==> forall i :: 0 <= i < |fields| ==> fields[i].0 != k
  {
    if fields == [] then None
    else if fields[0].0 == k then Some(0)
    else
      var r := KeyIndex(fields[1..], k);
      if r.Some? then Some(r.value + 1) else None
  }

  /** `obj[k]`: the value bound to `k`, if any. */
  function Lookup(fields: seq<(string, Json)>, k: string): Option<Json>
  {
    var i := KeyIndex(fields, k);
    if i.Some? then Some(fields[i.value].1) else None
  }

  /** Every key is bound at most once, as in every object `JSON.parse` produces. */
  predicate DistinctKeys(fields: seq<(string, Json)>)
  {
    forall i, j :: 0 <= i < j < |fields| ==> fields[i].0 != fields[j].0
  }

  /** In an object with distinct keys, looking a field's key up finds that field's value:
      taking the first binding is then no choice at all. */
  lemma LookupDistinct(fields: seq<(string, Json)>, i: nat)
    requires DistinctKeys(fields) && i < |fields|
    ensures Lookup(fields, fields[i].0) == Some(fields[i].1)
  {
    var r := KeyIndex(fields, fields[i].0);
    assert r.Some?;
  }

  /** `k in obj`, for an object value. */
  predicate HasKey(v: Json, k: string)
  {
    v.JObject? && KeyIndex(v.fields, k).Some?
  }

  /** The shape `extract` accepts: a non-empty array whose first entry is an object with
      `x`, `y` and `z` keys, or an array of at least three entries starting with a number. */
  predicate IsPointArray(v: Json)
  {
    && v.JArray?
    && |v.items| > 0
    && var first := v.items[0];
       || (HasKey(first, "x") && HasKey(first, "y") && HasKey(first, "z"))
       || (first.JArray? && |first.items| >= 3 && first.items[0].JNumber?)
  }

  /** The array `extract` finds: the value itself when it has the accepted shape; for an
      object, the preferred keys in order and then every key in order; for any other
      array, its entries in order. */
  function Extract(v: Json): (r: Option<seq<Json>>)
    ensures r.Some? ==> IsPointArray(JArray(r.value))
    ensures IsPointArray(v) ==> r == Some(v.items)
    decreases v, 2
  {
    if !Truthy(v) then None
    else if IsPointArray(v) then Some(v.items)
    else match v
      case JObject(fields) =>
        var preferred := SearchPreferred(v, 0);
        if preferred.Some? then preferred else SearchFields(v, 0)
      case JArray(items) => SearchItems(v, 0)
      case _ => None
  }

  /** What trying preferred key number `k` of object `v` gives: the recursive search of
      its value when the key is present and its value truthy, nothing otherwise. */
  function TryPreferred(v: Json, k: nat): (r: Option<seq<Json>>)
    requires v.JObject? && k < |PreferredKeys|
    ensures r.Some? ==> IsPointArray(JArray(r.value))
    decreases v, 1, 0
  {
    var i := KeyIndex(v.fields, PreferredKeys[k]);
    if i.Some? && Truthy(v.fields[i.value].1) then
      assert v.fields[i.value] in v.fields;
      Extract(v.fields[i.value].1)
    else None
  }

  /** The first loop of `extract`: the preferred keys from index `k` on. */
  function SearchPreferred(v: Json, k: nat): (r: Option<seq<Json>>)
    requires v.JObject? && k <= |PreferredKeys|
    ensures r.Some? ==> IsPointArray(JArray(r.value))
    decreases v, 1, |PreferredKeys| - k + 1
  {
    if k == |PreferredKeys| then None
    else
      var found := TryPreferred(v, k);
      if found.Some? then found else SearchPreferred(v, k + 1)
  }

  /** The second loop of `extract`: every key of object `v`, in order, from index `j` on. */
  function SearchFields(v: Json, j: nat): (r: Option<seq<Json>>)
    requires v.JObject? && j <= |v.fields|
    ensures r.Some? ==> IsPointArray(JArray(r.value))
    decreases v, 1, |v.fields| - j
  {
    if j == |v.fields| then None
    else
      assert v.fields[j] in v.fields;
      var found := Extract(v.fields[j].1);
      if found.Some? then found else SearchFields(v, j + 1)
  }

  /** `Object.keys` of an array is its indices: its entries in order, from index `j` on. */
  function SearchItems(v: Json, j: nat): (r: Option<seq<Json>>)
    requires v.JArray? && j <= |v.items|
    ensures r.Some? ==> IsPointArray(JArray(r.value))
    decreases v, 1, |v.items| - j
  {
    if j == |v.items| then None
    else
      var found := Extract(v.items[j]);
      if found.Some? then found else SearchItems(v, j + 1)
  }

  /** Whether an accepted array occurs anywhere in the tree, the value itself included. */
  predicate ContainsPointArray(v: Json)
    decreases v
  {
    || IsPointArray(v)
    || (v.JArray? && exists i :: 0 <= i < |v.items| && ContainsPointArray(v.items[i]))
    || (v.JObject? && exists i :: 0 <= i < |v.fields| && ContainsPointArray(v.fields[i].1))
  }

  /** The search fails exactly when no accepted array occurs anywhere in the document:
      the preferred keys change which array is found, never whether one is. */
  lemma {:induction false} ExtractComplete(v: Json)
    ensures Extract(v).Some? <==> ContainsPointArray(v)
    decreases v, 2
  {
    if !Truthy(v) || IsPointArray(v) {
    } else if v.JObject? {
      SearchPreferredSound(v, 0);
      SearchFieldsComplete(v, 0);
    } else if v.JArray? {
      SearchItemsComplete(v, 0);
    }
  }

  /** The preferred-key pass only returns what one of the preferred keys from `k` on
      yields, and that is the value of a field holding an accepted array. */
  lemma {:induction false} SearchPreferredSound(v: Json, k: nat)
    requires v.JObject? && k <= |PreferredKeys|
    ensures SearchPreferred(v, k).Some? ==>
      exists p :: k <= p < |PreferredKeys| && TryPreferred(v, p) == SearchPreferred(v, k)
    ensures SearchPreferred(v, k).Some? ==>
      exists i :: 0 <= i < |v.fields| && ContainsPointArray(v.fields[i].1)
    decreases v, 1, |PreferredKeys| - k + 1
  {
    if k < |PreferredKeys| {
      SearchPreferredSound(v, k + 1);
      if TryPreferred(v, k).Some? {
        assert TryPreferred(v, k) == SearchPreferred(v, k);
        var i := KeyIndex(v.fields, PreferredKeys[k]).value;
        assert v.fields[i] in v.fields;
        ExtractComplete(v.fields[i].1);
        assert ContainsPointArray(v.fields[i].1);
      }
    }
  }

  lemma {:induction false} SearchFieldsComplete(v: Json, j: nat)
    requires v.JObject? && j <= |v.fields|
    ensures SearchFields(v, j).Some? <==>
      exists i :: j <= i < |v.fields| && ContainsPointArray(v.fields[i].1)
    decreases v, 1, |v.fields| - j
  {
    if j < |v.fields| {
      assert v.fields[j] in v.fields;
      ExtractComplete(v.fields[j].1);
      SearchFieldsComplete(v, j + 1);
    }
  }

  lemma {:induction false} SearchItemsComplete(v: Json, j: nat)
    requires v.JArray? && j <= |v.items|
    ensures SearchItems(v, j).Some? <==>
      exists i :: j <= i < |v.items| && ContainsPointArray(v.items[i])
    decreases v, 1, |v.items| - j
  {
    if j < |v.items| {
      ExtractComplete(v.items[j]);
      SearchItemsComplete(v, j + 1);
    }
  }

  /** Preferred key number `p` decides the result when every earlier preferred key fails,
      whatever the object's other keys hold and wherever they stand. */
  lemma {:induction false} PreferredKeyWins(v: Json, p: nat, a: seq<Json>)
    requires v.JObject? && p < |PreferredKeys|
    requires TryPreferred(v, p) == Some(a)
    requires forall q :: 0 <= q < p ==> TryPreferred(v, q).None?
    ensures Extract(v) == Some(a)
  {
    SearchPreferredFrom(v, 0, p, a);
  }

  lemma {:induction false} SearchPreferredFrom(v: Json, k: nat, p: nat, a: seq<Json>)
    requires v.JObject? && k <= p < |PreferredKeys|
    requires TryPreferred(v, p) == Some(a)
    requires forall q :: k <= q < p ==> TryPreferred(v, q).None?
    ensures SearchPreferred(v, k) == Some(a)
    decreases p - k
  {
    if k < p {
      SearchPreferredFrom(v, k + 1, p, a);
    }
  }

  /** When no preferred key yields an array, the result is that of the first key, in key
      order, whose value yields one. */
  lemma {:induction false} FieldsInOrder(v: Json, j: nat, a: seq<Json>)
    requires v.JObject? && j <= |v.fields|
    requires SearchFields(v, j) == Some(a)
    ensures exists i :: j <= i < |v.fields| && Extract(v.fields[i].1) == Some(a)
              && forall i' :: j <= i' < i ==> Extract(v.fields[i'].1).None?
    decreases |v.fields| - j
  {
    if Extract(v.fields[j].1).None? {
      FieldsInOrder(v, j + 1, a);
    }
  }

  /** JavaScript's `Number(v)` for the values that reach it. Strings other than "" and
      arrays other than `[]` and `[n]` are taken as non-finite. */
  function ToNumber(v: Json): (r: Num)
    ensures v.JNumber? ==> r == v.n
    ensures v.JNull? || v == JBool(false) || v == JString("") ==> r == Finite(0.0)
    ensures v == JBool(true) ==> r == Finite(1.0)
    ensures v.JObject? ==> r.NonFinite?
  {
    match v
    case JNull => Finite(0.0)
    case JBool(b) => Finite(if b then 1.0 else 0.0)
    case JNumber(n) => n
    case JString(s) => if s == "" then Finite(0.0) else NonFinite
    case JArray(items) =>
      if items == [] then Finite(0.0)
      else if |items| == 1 && items[0].JNumber? then items[0].n
      else NonFinite
    case JObject(_) => NonFinite
  }

  /** Three coordinates become a point only when all three are finite. */
  function Coords(a: Json, b: Json, c: Json): (r: Option<Vec3>)
    ensures r.Some? <==> ToNumber(a).Finite? && ToNumber(b).Finite? && ToNumber(c).Finite?
    ensures r.Some? ==> r.value == Vec3(ToNumber(a).value, ToNumber(b).value, ToNumber(c).value)
  {
    var x, y, z := ToNumber(a), ToNumber(b), ToNumber(c);
    if x.Finite? && y.Finite? && z.Finite? then Some(Vec3(x.value, y.value, z.value)) else None
  }

  /** The object has a `co` key bound to an array of at least three entries. */
  predicate CoArray(p: Json)
  {
    && p.JObject?
    && var co := Lookup(p.fields, "co");
       co.Some? && co.value.JArray? && |co.value.items| >= 3
  }

  /** One entry of the found array: `[x, y, z, ...]`, `{x, y, z}` or `{co: [x, y, z, ...]}`. */
  function EntryPoint(p: Json): (r: Option<Vec3>)
    ensures r.Some? ==> p.JArray? || p.JObject?
    ensures p.JArray? && |p.items| < 3 ==> r.None?
    ensures p.JArray? && |p.items| >= 3 ==> r == Coords(p.items[0], p.items[1], p.items[2])
    ensures HasKey(p, "x") && HasKey(p, "y") && HasKey(p, "z") ==>
      r == Coords(Lookup(p.fields, "x").value, Lookup(p.fields, "y").value, Lookup(p.fields, "z").value)
    ensures p.JObject? && !(HasKey(p, "x") && HasKey(p, "y") && HasKey(p, "z")) && CoArray(p) ==>
      var co := Lookup(p.fields, "co").value;
      r == Coords(co.items[0], co.items[1], co.items[2])
    ensures p.JObject? && !(HasKey(p, "x") && HasKey(p, "y") && HasKey(p, "z")) && !CoArray(p) ==> r.None?
  {
    match p
    case JArray(items) => if |items| >= 3 then Coords(items[0], items[1], items[2]) else None
    case JObject(fields) =>
      if HasKey(p, "x") && HasKey(p, "y") && HasKey(p, "z") then
        Coords(Lookup(fields, "x").value, Lookup(fields, "y").value, Lookup(fields, "z").value)
      else
        var co := Lookup(fields, "co");
        if co.Some? && co.value.JArray? && |co.value.items| >= 3 then
          Coords(co.value.items[0], co.value.items[1], co.value.items[2])
        else None
    case _ => None
  }

  /** The points the filter keeps, in the order of their entries. */
  function KeptPoints(raw: seq<Json>): (r: seq<Vec3>)
    ensures |r| <= |raw|
  {
    if raw == [] then []
    else
      var last := EntryPoint(raw[|raw| - 1]);
      KeptPoints(raw[..|raw| - 1]) + (if last.Some? then [last.value] else [])
  }

  /** The point filter: one pass over the entries, pushing each accepted point. */
  method FilterPoints(raw: seq<Json>) returns (pts: seq<Vec3>)
    ensures pts == KeptPoints(raw)
  {
    pts := [];
    var i := 0;
    while i < |raw|
      invariant 0 <= i <= |raw|
      invariant pts == KeptPoints(raw[..i])
    {
      assert raw[..i + 1][..i] == raw[..i];
      var p := EntryPoint(raw[i]);
      if p.Some? {
        pts := pts + [p.value];
      }
      i := i + 1;
    }
    assert raw[..|raw|] == raw;
  }

  /** Filtering a concatenation filters each part: the kept points keep the entries' order. */
  lemma {:induction false} KeptPointsAppend(a: seq<Json>, b: seq<Json>)
    ensures KeptPoints(a + b) == KeptPoints(a) + KeptPoints(b)
    decreases |b|
  {
    if b == [] {
      assert a + b == a;
    } else {
      var b' := b[..|b| - 1];
      assert (a + b)[..|a + b| - 1] == a + b';
      KeptPointsAppend(a, b');
    }
  }

  /** A point is kept exactly when its entry has one of the three shapes with finite coordinates. */
  lemma KeptSingle(p: Json)
    ensures KeptPoints([p]) == if EntryPoint(p).Some? then [EntryPoint(p).value] else []
  {
    assert [p][..0] == [];
  }

  /** When every entry is a well-formed finite point, nothing is dropped and order is kept. */
  lemma {:induction false} KeptAll(raw: seq<Json>)
    requires forall i :: 0 <= i < |raw| ==> EntryPoint(raw[i]).Some?
    ensures |KeptPoints(raw)| == |raw|
    ensures forall i :: 0 <= i < |raw| ==> KeptPoints(raw)[i] == EntryPoint(raw[i]).value
  {
    if raw != [] {
      var init := raw[..|raw| - 1];
      KeptAll(init);
      assert KeptPoints(raw) == KeptPoints(init) + [EntryPoint(raw[|raw| - 1]).value];
      forall i | 0 <= i < |raw| - 1 ensures KeptPoints(raw)[i] == EntryPoint(raw[i]).value {
        assert init[i] == raw[i];
      }
    }
  }

  /** The three accepted shapes, with finite coordinates. */
  lemma AcceptedShapes(x: real, y: real, z: real)
    ensures EntryPoint(JArray([JNumber(Finite(x)), JNumber(Finite(y)), JNumber(Finite(z))])) == Some(Vec3(x, y, z))
    ensures EntryPoint(JObject([("x", JNumber(Finite(x))), ("y", JNumber(Finite(y))), ("z", JNumber(Finite(z)))]))
              == Some(Vec3(x, y, z))
    ensures EntryPoint(JObject([("co", JArray([JNumber(Finite(x)), JNumber(Finite(y)), JNumber(Finite(z))]))]))
              == Some(Vec3(x, y, z))
  {
    var o := JObject([("x", JNumber(Finite(x))), ("y", JNumber(Finite(y))), ("z", JNumber(Finite(z)))]);
    assert KeyIndex(o.fields[2..], "z") == Some(0);
    assert KeyIndex(o.fields[1..], "z") == Some(1);
    assert KeyIndex(o.fields[1..], "y") == Some(0);
    assert KeyIndex(o.fields, "x") == Some(0);
    assert KeyIndex(o.fields, "y") == Some(1);
    assert KeyIndex(o.fields, "z") == Some(2);
  }

  /** Whatever its shape, an entry is kept only as three of its values that all convert
      to finite numbers: an entry with a non-finite coordinate is dropped. */
  lemma KeptOnlyFinite(p: Json)
    ensures EntryPoint(p).Some? ==> exists a, b, c ::
      && EntryPoint(p) == Coords(a, b, c)
      && ToNumber(a).Finite? && ToNumber(b).Finite? && ToNumber(c).Finite?
      && EntryPoint(p).value == Vec3(ToNumber(a).value, ToNumber(b).value, ToNumber(c).value)
  {
    if EntryPoint(p).Some? {
      if p.JArray? {
        assert EntryPoint(p) == Coords(p.items[0], p.items[1], p.items[2]);
      } else if HasKey(p, "x") && HasKey(p, "y") && HasKey(p, "z") {
        var a, b, c := Lookup(p.fields, "x").value, Lookup(p.fields, "y").value, Lookup(p.fields, "z").value;
        assert EntryPoint(p) == Coords(a, b, c);
      } else {
        var co := Lookup(p.fields, "co").value;
        assert EntryPoint(p) == Coords(co.items[0], co.items[1], co.items[2]);
      }
    }
  }

  /** The whole read: find the array, give up below two entries, filter, give up below two
      points. A published point list has at least two points, all of them kept entries. */
  method LoadPathPoints(doc: Json) returns (r: Option<seq<Vec3>>)
    ensures r.Some? <==>
      && Extract(doc).Some?
      && 2 <= |Extract(doc).value|
      && 2 <= |KeptPoints(Extract(doc).value)|
    ensures r.Some? ==> r.value == KeptPoints(Extract(doc).value) && 2 <= |r.value|
  {
    var raw := Extract(doc);
    if raw.None? || |raw.value| < 2 {
      return None;
    }
    var pts := FilterPoints(raw.value);
    if |pts| < 2 {
      return None;
    }
    r := Some(pts);
  }
}

=== FILE: registration.dfy ===
/** Registration of the camera timelines and what their wrappers do when called: the
    sub-range wrappers over one sheet sequence move the sequence's playhead, and the
    simulated keyframe wrappers move the registered camera (or ask the camera controls
    for a smooth jump). */
module Registration {
  import opened MathUtil
  import opened Keyframes
  import opened SheetLayout
  import opened Registry

  /** The durations of the simulated timelines, in seconds. */
  const SimulatedDurationA: real := 1200.0
  const SimulatedDurationB: real := 1800.0

  /** The duration handed to the camera controls' smooth jump, in seconds. */
  const SmoothJumpSeconds: real := 0.3

  /** An animation sheet, with its sequence when it has one. */
  datatype Sheet = Sheet(sequence: Option<Sequence>)

  /** A smooth-jump request handed to the camera controls. */
  datatype SmoothJump = SmoothJump(pose: Pose, seconds: real)

  /** The layout of a sheet's sequence is computable: a positive detected length comes with
      a non-zero total duration to divide by. */
  predicate LayoutDefined(s: Sequence, d: Durations)
  {
    0.0 < DetectSequenceLength(s.pointerLength, s.length, d) ==> TotalDuration(d) != 0.0
  }

  /** Registers theatreA and theatreB as sub-ranges of the sheet's sequence, replacing any
      earlier wrappers under those ids; the helix segment is laid out but not registered.
      Nothing happens without a registry, a sheet, or a sequence on the sheet. */
  method RegisterSheetTimelines(registry: TimelineRegistry?, sheet: Option<Sheet>, d: Durations)
    requires sheet.Some? && sheet.value.sequence.Some? ==> LayoutDefined(sheet.value.sequence.value, d)
    modifies registry
    ensures registry != null ==> registry.cameraRef == old(registry.cameraRef)
    ensures registry != null && (sheet.None? || sheet.value.sequence.None?)
      ==> registry.timelines == old(registry.timelines)
    ensures registry != null && sheet.Some? && sheet.value.sequence.Some? ==>
      var s := sheet.value.sequence.value;
      var total := DetectSequenceLength(s.pointerLength, s.length, d);
      var l := ComputeLayout(total, d);
      && registry.timelines == old(registry.timelines)
           ["theatreA" := SheetRange(s, total, l.segA.start, l.segA.length)]
           ["theatreB" := SheetRange(s, total, l.segB.start, l.segB.length)]
      && registry.timelines.Keys == old(registry.timelines.Keys) + {"theatreA", "theatreB"}
  {
    if registry == null || sheet.None? || sheet.value.sequence.None? {
      return;
    }
    var s := sheet.value.sequence.value;
    var total := DetectSequenceLength(s.pointerLength, s.length, d);
    var l := ComputeLayout(total, d);
    registry.RegisterTimeline("theatreA", SheetRange(s, total, l.segA.start, l.segA.length));
    registry.RegisterTimeline("theatreB", SheetRange(s, total, l.segB.start, l.segB.length));
  }

  /** Registers the simulated theatreA (1200 s) and theatreB (1800 s) keyframe timelines,
      replacing any earlier wrappers under those ids. */
  method RegisterSimulatedTheatre(registry: TimelineRegistry)
    modifies registry
    ensures registry.timelines == old(registry.timelines)
      ["theatreA" := Simulated(KeyA, SimulatedDurationA)]
      ["theatreB" := Simulated(KeyB, SimulatedDurationB)]
    ensures registry.cameraRef == old(registry.cameraRef)
  {
    registry.RegisterTimeline("theatreA", Simulated(KeyA, SimulatedDurationA));
    registry.RegisterTimeline("theatreB", Simulated(KeyB, SimulatedDurationB));
  }

  /** A sub-range wrapper's `seek(tSec)`: moves the playhead to `RangeSeekPosition`. */
  method SheetRangeSeek(w: Wrapper, tSec: real)
    requires w.SheetRange?
    modifies w.sequence
    ensures w.sequence.position == RangeSeekPosition(w.seqTotal, w.start, w.length, tSec)
    ensures 0.0 <= w.seqTotal ==> 0.0 <= w.sequence.position <= w.seqTotal
  {
    var clamped := Clamp(tSec, 0.0, w.length);
    var target := w.start + clamped;
    if target <= w.seqTotal {
      w.sequence.SetPosition(w.seqTotal, target);
    } else {
      w.sequence.SetPosition(w.seqTotal, w.seqTotal);
    }
  }

  /** A sub-range wrapper's `seekNormalized(n)`: a seek to `length * clamp(n, 0, 1)`. */
  method SheetRangeSeekNormalized(w: Wrapper, n: real)
    requires w.SheetRange?
    modifies w.sequence
    ensures w.sequence.position == RangeSeekNormalizedPosition(w.seqTotal, w.start, w.length, n)
  {
    var tSec := w.length * Clamp(n, 0.0, 1.0);
    SheetRangeSeek(w, tSec);
    assert RangeSeekNormalizedPosition(w.seqTotal, w.start, w.length, n)
        == RangeSeekPosition(w.seqTotal, w.start, w.length, tSec);
  }

  /** The effect of moving the simulated camera to the pose sampled at `n`: nothing while an
      external controller holds the camera or when no camera is registered; otherwise a
      smooth-jump request when the controls offer one, and else the camera's position and
      orientation overwritten with the sampled pose. */
  twostate predicate CameraSeeked(registry: TimelineRegistry, kfs: seq<Keyframe>, n: real,
                                  externalControl: bool, new jump: Option<SmoothJump>)
    requires 1 <= |kfs|
    reads registry, registry.CameraFrame()
  {
    && registry.cameraRef == old(registry.cameraRef)
    && if registry.cameraRef.None? || registry.cameraRef.value.camera.None? then
         jump.None?
       else
         var cam := registry.cameraRef.value.camera.value;
         var pose := SampleKeyframes(kfs, n);
         if externalControl then
           jump.None? && unchanged(cam)
         else if registry.cameraRef.value.smoothJump then
           jump == Some(SmoothJump(pose, SmoothJumpSeconds)) && unchanged(cam)
         else
           jump.None? && cam.position == pose.p && cam.quaternion == pose.q
  }

  /** A simulated wrapper's `seekNormalized(n)`; `externalControl` is the page's flag that an
      external editor is driving the camera. */
  method SimulatedSeekNormalized(registry: TimelineRegistry, w: Wrapper, n: real, externalControl: bool)
    returns (jump: Option<SmoothJump>)
    requires w.Simulated? && 1 <= |w.keyframes|
    modifies registry.CameraFrame()
    ensures CameraSeeked(registry, w.keyframes, n, externalControl, jump)
  {
    if externalControl {
      return None;
    }
    var camRef := registry.GetCameraRef();
    if camRef.None? || camRef.value.camera.None? {
      return None;
    }
    var pose := SampleKeyframes(w.keyframes, n);
    if camRef.value.smoothJump {
      return Some(SmoothJump(pose, SmoothJumpSeconds));
    }
    var cam := camRef.value.camera.value;
    cam.position := pose.p;
    cam.quaternion := pose.q;
    return None;
  }

  /** A simulated wrapper's `seek(tSec)`: a normalized seek to `tSec / duration`. */
  method SimulatedSeek(registry: TimelineRegistry, w: Wrapper, tSec: real, externalControl: bool)
    returns (jump: Option<SmoothJump>)
    requires w.Simulated? && 1 <= |w.keyframes|
    modifies registry.CameraFrame()
    ensures CameraSeeked(registry, w.keyframes, SecondsToNorm(w.duration, tSec), externalControl, jump)
  {
    jump := SimulatedSeekNormalized(registry, w, SecondsToNorm(w.duration, tSec), externalControl);
  }

  /** The wrapper can be called: a simulated one has at least one keyframe. */
  predicate Callable(w: Wrapper)
  {
    w.Simulated? ==> 1 <= |w.keyframes|
  }

  /** What calling `w` may change: a sub-range wrapper its sequence, a simulated wrapper the
      registered camera, any other wrapper nothing in this model. */
  function EffectFrame(registry: TimelineRegistry, w: Wrapper): (r: set<object>)
    reads registry
    ensures w.Adapted? ==> r == {}
  {
    match w
    case SheetRange(s, _, _, _) => {s}
    case Simulated(_, _) => registry.CameraFrame()
    case Adapted(_, _, _, _, _) => {}
  }

  /** Carries out `call` on `w`. The sub-range and simulated wrappers' play and pause change
      nothing here; the effects of other wrappers are outside the model. */
  method Invoke(registry: TimelineRegistry, w: Wrapper, call: Call, externalControl: bool)
    returns (jump: Option<SmoothJump>)
    requires Callable(w)
    modifies EffectFrame(registry, w)
    ensures w.SheetRange? && call.Seek? ==>
      w.sequence.position == RangeSeekPosition(w.seqTotal, w.start, w.length, call.tSec)
    ensures w.SheetRange? && call.SeekNormalized? ==>
      w.sequence.position == RangeSeekNormalizedPosition(w.seqTotal, w.start, w.length, call.n)
    ensures w.SheetRange? && (call.Play? || call.Pause?) ==> unchanged(w.sequence)
    ensures w.Simulated? && call.Seek? ==>
      CameraSeeked(registry, w.keyframes, SecondsToNorm(w.duration, call.tSec), externalControl, jump)
    ensures w.Simulated? && call.SeekNormalized? ==>
      CameraSeeked(registry, w.keyframes, call.n, externalControl, jump)
    ensures w.Simulated? && (call.Play? || call.Pause?) ==> unchanged(registry.CameraFrame())
    ensures !(w.Simulated? && (call.Seek? || call.SeekNormalized?)) ==> jump.None?
  {
    jump := None;
    match w {
      case SheetRange(_, _, _, _) =>
        match call {
          case Seek(tSec) => SheetRangeSeek(w, tSec);
          case SeekNormalized(n) => SheetRangeSeekNormalized(w, n);
          case Play =>
          case Pause =>
        }
      case Simulated(_, _) =>
        match call {
          case Seek(tSec) => jump := SimulatedSeek(registry, w, tSec, externalControl);
          case SeekNormalized(n) => jump := SimulatedSeekNormalized(registry, w, n, externalControl);
          case Play =>
          case Pause =>
        }
      case Adapted(_, _, _, _, _) =>
    }
  }

  /** What `seekTimelineNormalized(id, norm)` may change: the frame of the wrapper under `id`. */
  function TimelineFrame(registry: TimelineRegistry, id: string): (r: set<object>)
    reads registry
    ensures id !in registry.timelines ==> r == {}
  {
    if id in registry.timelines then EffectFrame(registry, registry.timelines[id]) else {}
  }

  /** `seekTimelineNormalized(id, norm)` carried out: nothing for an unknown id; a sub-range
      timeline moves its playhead to the clamped fraction of its range; a simulated timeline
      moves the camera to the pose sampled at `norm`. */
  method SeekTimelineNormalized(registry: TimelineRegistry, id: string, norm: real, externalControl: bool)
    returns (jump: Option<SmoothJump>)
    requires id in registry.timelines ==> Callable(registry.timelines[id])
    modifies TimelineFrame(registry, id)
    ensures id !in registry.timelines ==> jump.None?
    ensures id in registry.timelines && registry.timelines[id].SheetRange? ==>
      var w := registry.timelines[id];
      w.sequence.position == RangeSeekNormalizedPosition(w.seqTotal, w.start, w.length, norm)
    ensures id in registry.timelines && registry.timelines[id].Simulated? ==>
      CameraSeeked(registry, registry.timelines[id].keyframes, norm, externalControl, jump)
  {
    var call := registry.SeekTimelineNormalized(id, norm);
    if call.None? {
      return None;
    }
    jump := Invoke(registry, registry.timelines[id], call.value, externalControl);
  }
}

=== FILE: registry.dfy ===
/** The timeline registry: a map from timeline id to a wrapper object, plus one slot for
    the camera reference. Its play/pause/seek entry points forward to the wrapper when
    the wrapper offers the matching operation; the call each one makes is returned as a
    `Call`, and the wrappers' effects are carried out in the Registration module. */
module Registry {
  import opened MathUtil
  import opened Keyframes
  import opened SheetLayout

  /** The scene camera: the part of its state the timelines write. */
  class Camera {
    var position: Vec3
    var quaternion: Orientation

    constructor (position: Vec3, quaternion: Orientation)
      ensures this.position == position && this.quaternion == quaternion
    {
      this.position := position;
      this.quaternion := quaternion;
    }
  }

  /** What the camera controls publish: the camera, when mounted, and whether they offer a
      smooth jump to a pose. */
  datatype CameraRef = CameraRef(camera: Option<Camera>, smoothJump: bool)

  /** A registered timeline wrapper: a sub-range of a sheet's sequence, a simulated
      keyframe timeline, or any other wrapper, described by the operations it offers and
      its `durationSeconds` (`None` when absent). */
  datatype Wrapper =
    | SheetRange(sequence: Sequence, seqTotal: real, start: real, length: real)
    | Simulated(keyframes: seq<Keyframe>, duration: real)
    | Adapted(canPlay: bool, canPause: bool, canSeek: bool, canSeekNormalized: bool, durationSeconds: Option<real>)
  {
    predicate HasPlay() { Adapted? ==> canPlay }
    predicate HasPause() { Adapted? ==> canPause }
    predicate HasSeek() { Adapted? ==> canSeek }
    predicate HasSeekNormalized() { Adapted? ==> canSeekNormalized }

    /** The wrapper's `durationSeconds`. */
    function Duration(): Option<real>
    {
      match this
      case SheetRange(_, _, _, length) => Some(length)
      case Simulated(_, duration) => Some(duration)
      case Adapted(_, _, _, _, d) => d
    }
  }

  /** A call made on a wrapper. */
  datatype Call = Play | Pause | Seek(tSec: real) | SeekNormalized(n: real)

  /** The call `seekTimelineNormalized` makes on a registered wrapper: its own normalized
      seek when it has one; otherwise, when it has a non-zero duration, a seek to the
      clamped fraction of that duration; otherwise a seek to `norm` itself. A wrapper
      without the operation chosen is not called. */
  function NormalizedSeekCall(w: Wrapper, norm: real): (r: Option<Call>)
    ensures w.HasSeekNormalized() ==> r == Some(SeekNormalized(norm))
    ensures r.Some? && r.value.Seek? ==> !w.HasSeekNormalized() && w.HasSeek()
    ensures !w.HasSeekNormalized() && w.HasSeek() ==> r.Some? && r.value.Seek?
    ensures !w.HasSeekNormalized() && !w.HasSeek() ==> r.None?
    ensures !w.HasSeekNormalized() && w.HasSeek() && w.Duration().Some? && w.Duration().value != 0.0
      ==> r == Some(Seek(FractionOfDuration(norm, w.Duration().value)))
    ensures !w.HasSeekNormalized() && w.HasSeek() && (w.Duration().None? || w.Duration().value == 0.0)
      ==> r == Some(Seek(norm))
  {
    if w.HasSeekNormalized() then Some(SeekNormalized(norm))
    else if w.Duration().Some? && w.Duration().value != 0.0 then
      if w.HasSeek() then Some(Seek(FractionOfDuration(norm, w.Duration().value))) else None
    else if w.HasSeek() then Some(Seek(norm))
    else None
  }

  /** `clamp(norm, 0, 1) * duration`: the seconds a normalized seek stands for; within
      [0, duration] for a non-negative duration. */
  function FractionOfDuration(norm: real, duration: real): (r: real)
    ensures 0.0 <= duration ==> 0.0 <= r <= duration
    ensures 0.0 <= duration && 0.0 <= norm <= 1.0 ==> r == norm * duration
  {
    var c := Clamp(norm, 0.0, 1.0);
    assert 0.0 <= duration ==> 0.0 <= c * duration <= duration by {
      if 0.0 <= duration {
        FractionOf(duration, c);
        assert c * duration == duration * c;
      }
    }
    c * duration
  }

  /** For a wrapper of positive duration without its own normalized seek, the seek made on
      its behalf stays within [0, duration]. */
  lemma FallbackSeekWithinDuration(w: Wrapper, norm: real)
    requires !w.HasSeekNormalized() && w.HasSeek()
    requires w.Duration().Some? && 0.0 < w.Duration().value
    ensures NormalizedSeekCall(w, norm).Some?
    ensures 0.0 <= NormalizedSeekCall(w, norm).value.tSec <= w.Duration().value
  {
  }

  class TimelineRegistry {
    var timelines: map<string, Wrapper>
    var cameraRef: Option<CameraRef>

    /** An empty registry with no camera reference. */
    constructor ()
      ensures timelines == map[] && cameraRef == None
    {
      timelines := map[];
      cameraRef := None;
    }

    /** Registers `w` under `id`, replacing any earlier wrapper for that id. */
    method RegisterTimeline(id: string, w: Wrapper)
      modifies this
      ensures timelines == old(timelines)[id := w]
      ensures GetTimeline(id) == Some(w)
      ensures forall other :: other != id ==> GetTimeline(other) == old(GetTimeline(other))
      ensures cameraRef == old(cameraRef)
    {
      timelines := timelines[id := w];
    }

    /** The wrapper registered under `id`, if any. */
    function GetTimeline(id: string): (r: Option<Wrapper>)
      reads this
      ensures r.Some? <==> id in timelines
      ensures r.Some? ==> r.value == timelines[id]
    {
      if id in timelines then Some(timelines[id]) else None
    }

    /** The call `playTimeline(id)` makes: none for an unknown id or a wrapper without play. */
    function PlayTimeline(id: string): (r: Option<Call>)
      reads this
      ensures r.Some? <==> id in timelines && timelines[id].HasPlay()
      ensures r.Some? ==> r.value == Play
    {
      if id in timelines && timelines[id].HasPlay() then Some(Play) else None
    }

    /** The call `pauseTimeline(id)` makes: none for an unknown id or a wrapper without pause. */
    function PauseTimeline(id: string): (r: Option<Call>)
      reads this
      ensures r.Some? <==> id in timelines && timelines[id].HasPause()
      ensures r.Some? ==> r.value == Pause
    {
      if id in timelines && timelines[id].HasPause() then Some(Pause) else None
    }

    /** The call `seekTimeline(id, tSec)` makes: the same seconds, passed unchanged. */
    function SeekTimeline(id: string, tSec: real): (r: Option<Call>)
      reads this
      ensures r.Some? <==> id in timelines && timelines[id].HasSeek()
      ensures r.Some? ==> r.value == Seek(tSec)
    {
      if id in timelines && timelines[id].HasSeek() then Some(Seek(tSec)) else None
    }

    /** The call `seekTimelineNormalized(id, norm)` makes: none for an unknown id, and the
      three-way dispatch of `NormalizedSeekCall` otherwise. */
    function SeekTimelineNormalized(id: string, norm: real): (r: Option<Call>)
      reads this
      ensures id !in timelines ==> r.None?
      ensures id in timelines ==> r == NormalizedSeekCall(timelines[id], norm)
    {
      if id in timelines then NormalizedSeekCall(timelines[id], norm) else None
    }

    /** Stores the camera reference, replacing the previous one. */
    method SetCameraRef(ref: Option<CameraRef>)
      modifies this
      ensures cameraRef == ref && GetCameraRef() == ref
      ensures timelines == old(timelines)
    {
      cameraRef := ref;
    }

    /** The stored camera reference. */
    function GetCameraRef(): (r: Option<CameraRef>)
      reads this
      ensures r == cameraRef
    {
      cameraRef
    }

    /** The camera the simulated timelines may write: present only when a reference with a
      mounted camera is stored. */
    function CameraFrame(): (r: set<object>)
      reads this
      ensures |r| <= 1
      ensures r != {} <==> cameraRef.Some? && cameraRef.value.camera.Some?
    {
      if cameraRef.Some? && cameraRef.value.camera.Some? then {cameraRef.value.camera.value} else {}
    }
  }
}

=== FILE: sheet_layout.dfy ===
/** Sub-range layout of one animation sequence: the sequence is split into three
    contiguous segments (theatreA, helix, theatreB) in proportion to their nominal
    durations, and seeks inside a segment are clamped into the sequence. */
module SheetLayout {
  import opened MathUtil

  const DefaultTheatreA: real := 1200.0
  const DefaultHelix: real := 1200.0
  const DefaultTheatreB: real := 1800.0

  /** The nominal durations in seconds; `None` is a missing entry. */
  datatype Durations = Durations(theatreA: Option<real>, helix: Option<real>, theatreB: Option<real>)

  /** The durations used when the caller passes none. */
  const DefaultDurations: Durations :=
    Durations(Some(DefaultTheatreA), Some(DefaultHelix), Some(DefaultTheatreB))

  /** `d || fallback`: a missing or zero duration takes the fallback. */
  function OrDefault(d: Option<real>, fallback: real): (r: real)
    ensures d.None? ==> r == fallback
    ensures d.Some? && d.value == 0.0 ==> r == fallback
    ensures d.Some? && d.value != 0.0 ==> r == d.value
    ensures r == fallback || (d.Some? && r == d.value)
  {
    match d
    case None => fallback
    case Some(v) => if v == 0.0 then fallback else v
  }

  function DurA(d: Durations): real { OrDefault(d.theatreA, DefaultTheatreA) }
  function DurH(d: Durations): real { OrDefault(d.helix, DefaultHelix) }
  function DurB(d: Durations): real { OrDefault(d.theatreB, DefaultTheatreB) }

  /** No supplied duration is negative. */
  predicate NonNegativeDurations(d: Durations)
  {
    (d.theatreA.Some? ==> 0.0 <= d.theatreA.value)
    && (d.helix.Some? ==> 0.0 <= d.helix.value)
    && (d.theatreB.Some? ==> 0.0 <= d.theatreB.value)
  }

  /** `dA + dH + dB`; positive whenever no supplied duration is negative. */
  function TotalDuration(d: Durations): (r: real)
    ensures NonNegativeDurations(d) ==> 0.0 < DurA(d) && 0.0 < DurH(d) && 0.0 < DurB(d) && 0.0 < r
  {
    DurA(d) + DurH(d) + DurB(d)
  }

  /** The sequence's total seconds: its pointer length when that is a finite non-zero
      number, else its length when that is, else the sum of the defaulted durations. */
  function DetectSequenceLength(pointerLength: Option<Num>, length: Option<Num>, d: Durations): (r: real)
    ensures pointerLength.Some? && pointerLength.value.Finite? && pointerLength.value.value != 0.0
      ==> r == pointerLength.value.value
    ensures !(pointerLength.Some? && pointerLength.value.Finite? && pointerLength.value.value != 0.0)
      && length.Some? && length.value.Finite? && length.value.value != 0.0
      ==> r == length.value.value
    ensures !(pointerLength.Some? && pointerLength.value.Finite? && pointerLength.value.value != 0.0)
      && !(length.Some? && length.value.Finite? && length.value.value != 0.0)
      ==> r == TotalDuration(d)
    ensures r == TotalDuration(d) || r != 0.0
  {
    if pointerLength.Some? && pointerLength.value.Finite? && pointerLength.value.value != 0.0 then
      pointerLength.value.value
    else if length.Some? && length.value.Finite? && length.value.value != 0.0 then
      length.value.value
    else
      TotalDuration(d)
  }

  datatype Segment = Segment(start: real, length: real)
  {
    function End(): real { start + length }
  }

  datatype Layout = Layout(seqTotal: real, scale: real, segA: Segment, segH: Segment, segB: Segment)

  /** The layout for a sequence of `seqTotal` seconds: every duration is scaled by
      `seqTotal / totalDur` (by 1 when `seqTotal` is not positive) and the segments are
      laid end to end from 0. */
  function ComputeLayout(seqTotal: real, d: Durations): (r: Layout)
    requires 0.0 < seqTotal ==> TotalDuration(d) != 0.0
    ensures r.seqTotal == seqTotal
    ensures 0.0 < seqTotal ==> r.scale * TotalDuration(d) == seqTotal
    ensures seqTotal <= 0.0 ==> r.scale == 1.0
    ensures r.segA.start == 0.0
    ensures r.segH.start == r.segA.End() && r.segB.start == r.segH.End()
    ensures r.segA.length == DurA(d) * r.scale
    ensures r.segH.length == DurH(d) * r.scale
    ensures r.segB.length == DurB(d) * r.scale
    ensures 0.0 < seqTotal ==> r.segB.End() == seqTotal
  {
    var scale := if 0.0 < seqTotal then seqTotal / TotalDuration(d) else 1.0;
    var segA := Segment(0.0, DurA(d) * scale);
    var segH := Segment(segA.End(), DurH(d) * scale);
    var segB := Segment(segH.End(), DurB(d) * scale);
    Distribute(DurA(d), DurH(d), DurB(d), scale);
    if 0.0 < seqTotal then
      QuotientTimes(seqTotal, TotalDuration(d));
      Layout(seqTotal, scale, segA, segH, segB)
    else
      Layout(seqTotal, scale, segA, segH, segB)
  }

  lemma Distribute(a: real, b: real, c: real, s: real)
    ensures a * s + b * s + c * s == (a + b + c) * s
  {
  }

  lemma QuotientTimes(x: real, y: real)
    requires y != 0.0
    ensures x / y * y == x
  {
  }

  lemma ProductPositive(a: real, b: real)
    requires 0.0 < a && 0.0 < b
    ensures 0.0 < a * b
  {
  }

  /** The segments lie end to end from 0, each of positive length, and the last one ends
      at the end of the sequence. */
  predicate Tiles(l: Layout)
  {
    && 0.0 < l.segA.length && 0.0 < l.segH.length && 0.0 < l.segB.length
    && l.segA.start == 0.0
    && l.segH.start == l.segA.End()
    && l.segB.start == l.segH.End()
    && l.segB.End() == l.seqTotal
  }

  /** With no negative duration and a positive sequence length, the scale is positive and
      the three segments tile [0, seqTotal] in order. */
  lemma LayoutTilesSequence(seqTotal: real, d: Durations)
    requires 0.0 < seqTotal && NonNegativeDurations(d)
    ensures 0.0 < ComputeLayout(seqTotal, d).scale
    ensures Tiles(ComputeLayout(seqTotal, d))
  {
    var l := ComputeLayout(seqTotal, d);
    var t := TotalDuration(d);
    assert 0.0 < l.scale by {
      QuotientTimes(seqTotal, t);
      assert l.scale == seqTotal / t;
    }
    ProductPositive(DurA(d), l.scale);
    ProductPositive(DurH(d), l.scale);
    ProductPositive(DurB(d), l.scale);
  }

  /** `Math.max(0, Math.min(seqTotal, abs))`: the position `setSeqPos` writes. */
  function SafePosition(seqTotal: real, abs: real): (r: real)
    ensures 0.0 <= r
    ensures 0.0 <= seqTotal ==> r <= seqTotal
    ensures 0.0 <= abs <= seqTotal ==> r == abs
  {
    Max(0.0, Min(seqTotal, abs))
  }

  /** The position a sub-range wrapper's `seek(tSec)` writes: `tSec` is clamped to
      [0, length] and offset by the start; a target past the sequence writes the end. */
  function RangeSeekPosition(seqTotal: real, start: real, length: real, tSec: real): (r: real)
    ensures 0.0 <= r
    ensures 0.0 <= seqTotal ==> r <= seqTotal
    ensures 0.0 <= start && start + Clamp(tSec, 0.0, length) <= seqTotal
      ==> r == start + Clamp(tSec, 0.0, length)
    ensures seqTotal < start + Clamp(tSec, 0.0, length) ==> r == SafePosition(seqTotal, seqTotal)
  {
    var target := start + Clamp(tSec, 0.0, length);
    if target <= seqTotal then SafePosition(seqTotal, target) else SafePosition(seqTotal, seqTotal)
  }

  /** The position a sub-range wrapper's `seekNormalized(n)` writes: `n` is clamped to
      [0,1] and scaled by the length. */
  function RangeSeekNormalizedPosition(seqTotal: real, start: real, length: real, n: real): (r: real)
    ensures 0.0 <= r
    ensures 0.0 <= seqTotal ==> r <= seqTotal
    ensures 0.0 <= start && start <= seqTotal && length <= 0.0 ==> r == start
  {
    RangeSeekPosition(seqTotal, start, length, length * Clamp(n, 0.0, 1.0))
  }

  /** With the default durations and a sequence whose length is not reported, the
      sequence is 4200 s long and the segments are [0, 1200], [1200, 2400] and
      [2400, 4200], unscaled. */
  lemma DefaultLayout()
    ensures DetectSequenceLength(None, None, DefaultDurations) == 4200.0
    ensures var l := ComputeLayout(4200.0, DefaultDurations);
      && l.scale == 1.0
      && l.segA == Segment(0.0, 1200.0)
      && l.segH == Segment(1200.0, 1200.0)
      && l.segB == Segment(2400.0, 1800.0)
  {
    var l := ComputeLayout(4200.0, DefaultDurations);
    assert TotalDuration(DefaultDurations) == 4200.0;
    assert l.scale * 4200.0 == 4200.0;
  }

  /** Seeking later never moves the sequence earlier. */
  lemma RangeSeekMonotone(seqTotal: real, start: real, length: real, t1: real, t2: real)
    requires t1 <= t2
    ensures RangeSeekPosition(seqTotal, start, length, t1) <= RangeSeekPosition(seqTotal, start, length, t2)
  {
    ClampMonotone(t1, t2, 0.0, length);
  }

  /** A range lying inside [0, seqTotal] is never held at the end: a normalized seek lands
      exactly at `start + length * clamp(n, 0, 1)`, inside the range. */
  lemma SeekNormalizedInRange(seqTotal: real, start: real, length: real, n: real)
    requires 0.0 <= start && 0.0 <= length && start + length <= seqTotal
    ensures var r := RangeSeekNormalizedPosition(seqTotal, start, length, n);
      && r == start + length * Clamp(n, 0.0, 1.0)
      && start <= r <= start + length
  {
    var c := Clamp(n, 0.0, 1.0);
    FractionOf(length, c);
  }

  /** In a layout that tiles the sequence, a normalized seek on theatreA or on theatreB
      lands at `start + length * clamp(n, 0, 1)` inside its segment. */
  lemma SeekNormalizedInSegment(l: Layout, onB: bool, n: real)
    requires Tiles(l)
    ensures var s := if onB then l.segB else l.segA;
      var r := RangeSeekNormalizedPosition(l.seqTotal, s.start, s.length, n);
      && r == s.start + s.length * Clamp(n, 0.0, 1.0)
      && s.start <= r <= s.End()
  {
    if onB {
      SeekNormalizedInRange(l.seqTotal, l.segB.start, l.segB.length, n);
    } else {
      SeekNormalizedInRange(l.seqTotal, l.segA.start, l.segA.length, n);
    }
  }

  /** Seeking theatreA to its end lands where the helix segment begins. */
  lemma SegmentAEndsWhereHelixStarts(l: Layout)
    requires Tiles(l)
    ensures RangeSeekNormalizedPosition(l.seqTotal, l.segA.start, l.segA.length, 1.0) == l.segH.start
  {
    SeekNormalizedInSegment(l, false, 1.0);
  }

  /** A sheet's animation sequence: its reported lengths and its playhead position. */
  class Sequence {
    const pointerLength: Option<Num>
    const length: Option<Num>
    var position: real

    constructor (pointerLength: Option<Num>, length: Option<Num>, position: real)
      ensures this.pointerLength == pointerLength && this.length == length
      ensures this.position == position
    {
      this.pointerLength := pointerLength;
      this.length := length;
      this.position := position;
    }

    /** `setSeqPos`: writes the requested position clamped into [0, seqTotal]. */
    method SetPosition(seqTotal: real, abs: real)
      modifies this
      ensures position == SafePosition(seqTotal, abs)
      ensures 0.0 <= seqTotal ==> 0.0 <= position <= seqTotal
    {
      position := SafePosition(seqTotal, abs);
    }
  }
}
